=== FILE: README.md ===
# A verified model of a toy C compiler front end

This project models the front end of a small C compiler in Dafny and proves
properties of the model. It covers six parts:

- **The arithmetic lexer** (`src/Lexer.cpp` with `src/Lexer.h`). A cursor over the
  source text skips blanks. It counts rows and remembers where the current line
  starts. It stamps each token with row and column, emits `Eof` at the end, and
  reads a run of decimal digits as a `Number`.
- **The newer token record** (`src/include/Lexer.h`). Its constructors and
  `setMember`.
- **The arithmetic parser** (`src/Parser.cpp`, grammar `prog / expr / term /
  factor`). A recursive-descent cascade in which `*` and `/` bind tighter than
  `+` and `-`, and both tiers group to the left. Parenthesised factors, and a
  program loop that skips stray `;`. It builds the number-and-binary-node trees
  of `src/Ast.cpp`.
- **The AST of the newer front end** (`src/include/Ast.h`). A closed set of node
  classes, discriminated by `classof` on a node-kind tag.
- **The symbol table** (`src/Scope.cpp`). A stack of name-to-symbol frames,
  searched from the innermost outwards.
- **The semantic actions** (`src/Sema.cpp`). Node constructors that report:
  - a name declared twice in one frame;
  - a name used but never declared;
  - an assignment to something that is not a variable.

Everything is modelled as immutable datatypes and pure functions:

- The lexer is a function from a cursor and the token passed by reference to a
  new cursor and the written token.
- The parser consists of recursive functions over a token sequence. The position
  in the sequence is the termination measure.
- The symbol table is a `seq<map<string, Symbol>>`.
- A diagnostic of error severity ends the process in the source. The model
  represents it as a `Failure` carrying the diagnostic.

The modules are:

| module | file | models |
|---|---|---|
| `Wrappers` | wrappers.dfy | `Option` (a pointer that may be null) and `Result` (an operation that may abort) |
| `CTypes` | ctype.dfy | the single built-in `int` type |
| `Tokens` | tokens.dfy | `Token` of `src/include/Lexer.h` |
| `Ast` | ast.dfy | the node classes of `src/include/Ast.h` |
| `ArithAst` | arith_ast.dfy | the expression tree of `src/Ast.cpp` |
| `Lexer` | lexer.dfy | `src/Lexer.cpp`, `src/Lexer.h` |
| `Parser` | parser.dfy | `src/Parser.cpp` |
| `ParserProofs` | parser_proofs.dfy | a minimal-parenthesis printer and the parse/print round trip |
| `SymbolTable` | scope.dfy | `src/Scope.cpp`, `src/include/Scope.h` |
| `Semantic` | sema.dfy | `src/Sema.cpp` |

### Notes on the source

- **The lexer.** `src/Lexer.cpp` is the older arithmetic lexer. It has no rules
  for identifiers, keywords or operators. A character that is neither blank nor
  digit gets only its position written: the token keeps its kind and value, and
  the cursor stays on the character. Numbers carry no type.
- **The digit loop.** It never advances the cursor (see Findings). The model
  uses the one-character advance that was evidently intended, and keeps the
  as-written loop alongside it.
- **`AddSymbol`.** It uses `StringMap::insert`, which keeps an existing entry.
  Adding a name already in the innermost frame therefore changes nothing.
- **The parser.** `src/Parser.cpp` parses the arithmetic grammar of
  `src/include/Parser.h:11-15`.
  - It builds `Factor` leaves. `src/Parser.cpp:70` names them `FactorExpr`, but
    `src/Ast.cpp:6` defines `Factor`.
  - Its `assert(IsExcept(RightParent))` is modelled as a failure
    `MissingRightParent` at the position where `)` was expected.
  - `src/include/Parser.h:6` includes the newer token header
    `src/include/Lexer.h`. The model's parser reads the older `Lexer.Token`.
    The parser looks only at a token's kind and a number's value, which both
    records have.
- **Diagnostics end the process.** An error report calls `exit`, so no node is
  built after a report.
- **Default token values.** The default token of `src/Lexer.h` holds
  `__INT_MAX__` as its value. The newer token of `src/include/Lexer.h` holds 0.
  Each module keeps its own.
- **`Sema` members.** `src/include/Sema.h:19-25` declares five `Sema*`
  functions. `src/Sema.cpp` also defines `SemaIfStmtNode`, `SemaForStmtNode`,
  `EnterScope` and `ExitScope`. All nine are modelled.
- **`SemaAssignExprNode` signature.** `src/include/Sema.h:20-21` declares it with
  two operands, and `src/Sema.cpp:41` defines it with a third, the token. That
  token only positions the diagnostic, so the model takes the two operands.

## Model

| member | source | states |
|---|---|---|
| Lexer.DefaultToken | src/Lexer.h:31-35 | a default token is at row and column -1, of kind `Unknown`, with value `__INT_MAX__` |
| Lexer.New | src/Lexer.cpp:3-8 | a new lexer has its cursor and its line start on the first character, and is on row 1 |
| Lexer.SkipWhitespace | src/Lexer.cpp:19-25 | skipping blanks stops at the end of input or on a character that is not a blank, and never moves the cursor or the row backwards |
| Lexer.SkipsOnlyBlanks | src/Lexer.cpp:10-12 | every character skipped is a space, a carriage return or a newline |
| Lexer.SkipCountsNewlines | src/Lexer.cpp:20-21 | the row grows by exactly the number of newlines skipped |
| Lexer.SkipTracksLineStart | src/Lexer.cpp:20-23 | after skipping, the line starts just past the last newline skipped, or where it started if no newline was skipped |
| Lexer.ScanDigits | src/Lexer.cpp:35-39 | the corrected digit loop consumes exactly the maximal run of digits at the cursor |
| Lexer.ScanDigitsValue | src/Lexer.cpp:36-41 | the accumulator ends as the starting value shifted past the run plus the decimal value of the run |
| Lexer.NextToken | src/Lexer.cpp:18-43 | a call keeps the lexer valid, never moves the cursor or the row backwards, and writes the current row and a column of at least 1 |
| Lexer.ReadToken | src/Lexer.cpp:27-42 | after the blanks, reading a token never moves the row and never moves the cursor backwards |
| Lexer.TokenPosition | src/Lexer.cpp:27-28 | the token's row is the starting row plus the newlines skipped before it; its column is its distance from the line start plus one |
| Lexer.EofAtEnd | src/Lexer.cpp:30-33 | at the end of input the token becomes `Eof` and keeps its old value, and the cursor stays after the blanks |
| Lexer.NumberToken | src/Lexer.cpp:35-42 | on a digit the token becomes a `Number` whose value is the decimal value of the maximal digit run, and the cursor moves just past the run; the row and the line start stay as the blanks left them |
| Lexer.OtherCharacterKeepsToken | src/Lexer.cpp:35-43 | on any other character the token keeps its kind and value, and the cursor stops on that character |
| Lexer.EofIsSticky | src/Lexer.cpp:19-33 | once input is exhausted, every further call yields `Eof` at the same position and the cursor stays put |
| Lexer.UnknownCharacterStalls | src/Lexer.cpp:18-43 | on a character that is neither blank nor digit, calling again returns exactly the same step, so the lexer makes no progress |
| Lexer.PositionOnly | src/Lexer.cpp:27-28 | at a character that is neither blank nor digit, only row and column are written |
| Lexer.LineStartAfterNewline | src/Lexer.cpp:20-23 | when the last blank skipped is a newline, the line starts at the cursor and the row has grown |
| Lexer.ColumnOneAfterNewline | src/Lexer.cpp:20-28 | a token right after a newline is in column 1, at least one row below where the call started |
| Lexer.AppendDigit | src/Lexer.cpp:38 | appending a digit to a run multiplies its value by ten and adds the digit |
| Lexer.PrefixStep | src/Lexer.cpp:37-38 | each turn of the loop takes the accumulator from the value of the first `j` digits to the value of the first `j + 1` |
| Lexer.PrefixBounded | src/Lexer.cpp:37-38 | no prefix of a digit run is worth more than the whole run |
| Lexer.DigitLoopStaysInRange | src/Lexer.cpp:36-39 | when a run's value fits a 32-bit `int`, every intermediate accumulator value fits as well |
| Lexer.AsWrittenDigitLoop | src/Lexer.cpp:37-39 | the loop as written never moves the cursor |
| Lexer.AsWrittenDigitLoopNeverExits | src/Lexer.cpp:37-39 | as written, once the guard holds it holds after any number of turns, while the accumulator keeps appending the same digit |
| Lexer.AsWrittenDigitLoopOverflowsOnSeven | src/Lexer.cpp:36-39 | as written, lexing `7` spins on the `7`, and within ten turns the accumulator passes `__INT_MAX__` |
| Lexer.CorrectedDigitLoopOnSeven | src/Lexer.cpp:35-42 | with the cursor advanced per digit, lexing `7` gives the `Number` 7 at row 1, column 1 |
| Lexer.TwoLineExample | src/Lexer.cpp:18-42 | lexing `12 3` and `45` on two lines gives numbers 12, 3 and 45 at (1,1), (1,4) and (2,1), then `Eof` at (2,3) with the last value kept |
| Tokens.Default | src/include/Lexer.h:55-60 | the default token is at row and column -1, of kind `Unknown`, with value 0 |
| Tokens.Make | src/include/Lexer.h:62-63 | the three-argument constructor sets kind, row and column |
| Tokens.SetMember | src/include/Lexer.h:67-73 | `setMember` overwrites kind, value, type and text, and keeps the position |
| Tokens.SetMemberDefaults | src/include/Lexer.h:67 | without the optional arguments, the value is 0 and the type is null |
| Tokens.SetMemberForgetsOldMembers | src/include/Lexer.h:67-73 | after `setMember`, two tokens at the same position are equal whatever they held before |
| Ast.Make | src/include/Ast.h:83-84 | a no-argument constructor gives a node of the requested kind that only that kind's `classof` accepts, with a default token and no children |
| Ast.NewBinaryExpr | src/include/Ast.h:233-235 | a binary node stores its operands and operator unchanged and is accepted by `BinaryExpr::classof` |
| Ast.NewAssignExpr | src/include/Ast.h:280-282 | an assignment node stores both operands unchanged and is accepted by `AssignExpr::classof` |
| Ast.ClassOfIsExactlyOwnKind | src/include/Ast.h:63-75 | `classof` accepts a node for its own kind and no other, because the enum values are distinct |
| Ast.ClassOfVariableAccess | src/include/Ast.h:269-271 | `isa<VariableAssessExpr>` holds exactly for variable-access nodes |
| Parser.NotEofIsInside | src/Parser.cpp:87-89 | advancing over a token that is not `Eof` shrinks what remains of the stream |
| Parser.Consume | src/Parser.cpp:79-85 | `Consume` answers whether the current token has the kind, and advances exactly when it does |
| Parser.ParseFactor | src/Parser.cpp:61-73 | a successful factor consumes at least one token and yields a tree over the four arithmetic operators |
| Parser.ParseTerm | src/Parser.cpp:42-58 | a successful term consumes at least one token and yields a well-formed tree |
| Parser.TermTail | src/Parser.cpp:45-56 | the product loop never moves backwards and keeps the tree well formed |
| Parser.ParseExpr | src/Parser.cpp:23-39 | a successful expression consumes at least one token and yields a well-formed tree |
| Parser.ExprTail | src/Parser.cpp:26-37 | the sum loop never moves backwards and keeps the tree well formed |
| Parser.ProgramLoop | src/Parser.cpp:10-17 | the program loop only appends to the expressions gathered so far, and all of them are well formed |
| Parser.ParseProgram | src/Parser.cpp:8-20 | every expression of a parsed program is well formed |
| ParserProofs.FactorRoundTrip | src/Parser.cpp:61-73 | a factor (a number, or an expression in parentheses) parses back to itself from any stream whose tokens agree with its printed tokens on kind and on a number's value, whatever their positions; the parser ends right after it |
| ParserProofs.TermRoundTrip | src/Parser.cpp:42-58 | a product chain followed by neither `*` nor `/` parses back to itself, grouped to the left, from any stream agreeing with its printed tokens on kinds and number values |
| ParserProofs.TermTailRoundTrip | src/Parser.cpp:45-56 | the product loop over the text after a chain's leftmost operand rebuilds the chain on whatever operand it starts from, over any stream agreeing with the printed text on kinds and number values |
| ParserProofs.ExprRoundTrip | src/Parser.cpp:23-39 | an expression followed by no operator parses back to itself from any stream agreeing with its printed tokens on kinds and number values, so precedence and left grouping are exactly what the printer omits |
| ParserProofs.ExprTailRoundTrip | src/Parser.cpp:26-37 | the sum loop over the text after a chain's leftmost term, followed by neither `*` nor `/`, rebuilds the chain on whatever operand it starts from, over any stream agreeing with the printed text on kinds and number values |
| ParserProofs.StatementsRoundTrip | src/Parser.cpp:10-17 | the program loop reads back each statement, in order, after what it has gathered, from any stream agreeing with the printed statements on kinds and number values |
| ParserProofs.ProgramRoundTrip | src/Parser.cpp:8-20 | parsing a printed program (each expression followed by `;`, then `Eof`) gives back exactly its expressions |
| ParserProofs.SemicolonsSkipped | src/Parser.cpp:11-14 | any number of stray `;` are skipped without changing what has been gathered |
| ParserProofs.UnclosedParenthesisFails | src/Parser.cpp:62-66 | a parenthesised expression not followed by `)` fails at the position where `)` was expected, whatever the positions of the tokens before it |
| ParserProofs.FailureStopsTheProgram | src/Parser.cpp:15-16 | a failure in a statement's first factor ends the whole program with that failure |
| ParserProofs.ProgramStep | src/Parser.cpp:10-17 | at any token other than `Eof` and `;` (a stray `)`, operator or unknown token included) the program loop parses exactly one expression and appends it, or ends with that expression's error |
| ParserProofs.FactorFails | src/Parser.cpp:62-67 | with `(` current, an error inside the parentheses is the factor's error; a successful inner expression not followed by `)` fails where `)` was expected; otherwise the factor is the inner expression and the parser moves past `)` |
| ParserProofs.TermTailFails | src/Parser.cpp:45-56 | with `*` or `/` current, a failing right operand ends the product loop with its error |
| ParserProofs.ExprTailFails | src/Parser.cpp:26-37 | with `+` or `-` current, a failing right operand ends the sum loop with its error |
| ParserProofs.FirstOperandFails | src/Parser.cpp:23-43 | a failing first factor fails the term with the same error, and a failing first term fails the expression with it |
| ParserProofs.StrayTokenIsAStatement | src/Parser.cpp:10-17 | the program `) ;` holds one expression, the number leaf carrying the `)` token's value |
| ParserProofs.AnyOtherTokenIsANumber | src/Parser.cpp:70-72 | any token other than `(` becomes a number leaf with that token's value, and the parser moves one past it |
| ParserProofs.MultiplicationBindsTighter | src/include/Parser.h:12-13 | `1 + 2 * 3` parses as `1 + (2 * 3)` |
| ParserProofs.SubtractionGroupsLeft | src/Parser.cpp:26-37 | `8 - 4 - 2` parses as `(8 - 4) - 2` |
| ParserProofs.ParenthesesOverrideGrouping | src/include/Parser.h:14 | `8 / (4 / 2)` keeps the grouping its parentheses give |
| ParserProofs.UnclosedParenthesisExample | src/Parser.cpp:62-66 | the program `(1` fails with `)` expected at position 2 |
| ParserProofs.LexedPositionsDoNotMatter | src/Parser.cpp:23-39 | a hand-built `1+2` stream with tokens at columns 1 to 4, whose `+` and `Eof` carry arbitrary non-number values, parses as the sum `1 + 2` |
| SymbolTable.New | src/Scope.cpp:4-6 | a new scope has one frame, and no name is found in it |
| SymbolTable.EnterScope | src/Scope.cpp:8-10 | entering pushes one frame; every lookup answers as before, and the innermost frame binds nothing |
| SymbolTable.ExitScope | src/Scope.cpp:12-14 | leaving a scope removes exactly the innermost frame and keeps the others in order |
| SymbolTable.AddSymbol | src/Scope.cpp:16-19 | adding changes only the innermost frame and adds exactly the name to its keys; a name already there keeps its symbol, and otherwise it gets the new one; no other name's innermost lookup changes |
| SymbolTable.FindVarSymbol | src/Scope.cpp:21-29 | the lookup finds nothing exactly when no frame binds the name, and otherwise answers the symbol of the innermost frame that binds it |
| SymbolTable.FindIn | src/Scope.cpp:22-28 | the reverse loop over the frames finds the innermost binding, or nothing when no frame has the name |
| SymbolTable.FindVarSymbolInCurrEnv | src/Scope.cpp:31-37 | the current-frame lookup finds something exactly when the innermost frame binds the name |
| SymbolTable.CurrEnvHitShadows | src/Scope.cpp:21-37 | a hit in the innermost frame is also what the full search answers |
| SymbolTable.EnterThenExit | src/Scope.cpp:8-14 | entering and then leaving a scope restores the frame stack |
| SymbolTable.AddThenFind | src/Scope.cpp:16-29 | after adding a name the innermost frame lacked, both lookups find the new symbol, whatever the outer frames bind |
| SymbolTable.AddKeepsExisting | src/Scope.cpp:16-19 | adding a name the innermost frame already binds leaves the scope unchanged |
| SymbolTable.AddLeavesOtherNames | src/Scope.cpp:16-29 | adding one name leaves the lookup of every other name unchanged |
| SymbolTable.ShadowingEndsWithFrame | src/Scope.cpp:8-29 | a name added in a fresh frame hides any outer one, and once the frame is left the outer binding is found again |
| Semantic.New | src/include/Sema.h:14-16 | a fresh analyser has one frame and no names |
| Semantic.SemaVariableDeclNode | src/Sema.cpp:25-38 | declaring reports redefinition exactly when the innermost frame binds the name. Otherwise: the declaration node carries the token and type; the new scope is exactly the old one with the name inserted into the innermost frame as a local variable of that type; every other name resolves as before |
| Semantic.SemaVariableAccessExprNode | src/Sema.cpp:51-62 | an access reports an undefined name exactly when no frame binds it; otherwise the access node carries the token and the type of the innermost symbol of that name |
| Semantic.SemaAssignExprNode | src/Sema.cpp:40-49 | an assignment reports a non-lvalue exactly when the left operand is not a variable access; otherwise the node keeps both operands and takes the left operand's token |
| Semantic.SemaBinaryExprNode | src/Sema.cpp:64-67 | the binary node stores operator and operands unchanged, with a default token and no type |
| Semantic.SemaNumberExprNode | src/Sema.cpp:69-74 | the number node carries the token and the type |
| Semantic.SemaIfStmtNode | src/Sema.cpp:3-11 | the `if` node stores its three parts unchanged, with a default token and no type |
| Semantic.SemaForStmtNode | src/Sema.cpp:13-23 | the `for` node stores its four parts unchanged, with a default token and no type |
| Semantic.EnterScope | src/Sema.cpp:76-78 | opening a scope keeps every name resolving as before, and the new frame binds nothing |
| Semantic.ExitScope | src/Sema.cpp:80-82 | closing a scope drops the innermost frame and keeps the rest |
| Semantic.DeclThenAccess | src/Sema.cpp:25-62 | a declared name can be used at once, and the use has the declared type |
| Semantic.RedeclarationFails | src/Sema.cpp:27-31 | declaring the same name twice in one frame reports a redefinition |
| Semantic.ShadowingInInnerFrame | src/Sema.cpp:25-82 | in a fresh scope a name may be declared again and uses see the new type; after the scope closes, uses resolve as before it opened |
| Semantic.UseBeforeDeclarationFails | src/Sema.cpp:53-56 | in a fresh analyser every use reports an undefined name |
| Semantic.AssignToAccessedVariable | src/Sema.cpp:42-48 | a successful variable access is always a valid assignment target, and the assignment carries its token |
| Semantic.AssignToNumberFails | src/Sema.cpp:43-45 | assigning to a number reports a non-lvalue |
| Semantic.DeclareIntThenAssign | src/Sema.cpp:25-48 | in a fresh analyser, `int x;` succeeds, a use of `x` has type `int`, and assigning a number to it is accepted |

## Left out

- Code generation (`src/CodeGen.cpp`): it emits LLVM IR through foreign interfaces.
- The AST printer (`src/PrintVisitor.cpp`): output only.
- The command-line driver (`src/main.cpp`): file and buffer handling.
- The `Visitor`/`AcceptVisitor` double dispatch: pattern matching replaces it.
- The diagnostics engine (`src/Diagnostics.cpp`): message formatting and source
  locations through `SourceMgr`.
  - A report is modelled only by its effect: error severity ends the run.
  - The severity table (`Diagnostics.inc`) is not part of this model. The three
    semantic diagnostics are taken to be errors, as their names say.
- Functions of the newer lexer declared without bodies: `SaveState`,
  `RestoreState`, `KeyWordHandle`, `GetSpellingText`, `Run`. Nothing of their
  behaviour is invented.
- `BreakStmt`/`ContinueStmt` back-references (`fatherNode`): no code shown sets
  them.
- Uninitialised fields become placeholders:
  - the token's type and span after the default constructor (null type, empty
    text);
  - the token's value, type and span after `Tokens.Make`, the kind-row-column
    constructor of `src/include/Lexer.h:62-63` (value 0, null type, empty text);
  - a node's type after its constructor (null).
- `shared_ptr` ownership and the raw `ptr`/`length` spans: a token's spelling is
  its text.
- Parser.ParseProgram: the parser reads a finite token sequence ending in `Eof`
  (past its end it keeps yielding that `Eof`) rather than calling the lexer.
  - The lexer as written never produces operator, parenthesis or `;` tokens. The
    lexer-to-parser pipeline therefore cannot be composed faithfully, and the
    parser is modelled over the token stream a complete lexer would deliver.
- Parser.ParseFactor: the `assert` on the closing parenthesis becomes a failure
  outcome. In a build without assertions the source would consume the wrong
  token and carry on.
- Parser.ParseFactor, Parser.ParseTerm, Parser.TermTail, Parser.ParseExpr,
  Parser.ExprTail, Parser.ProgramLoop, Parser.ParseProgram: their own contracts
  state only progress and well-formedness. What they parse is stated by the
  `ParserProofs` lemmas: the round trips, `ProgramStep`, `SemicolonsSkipped`,
  and the failure lemmas (`FactorFails`, `TermTailFails`, `ExprTailFails`,
  `FirstOperandFails`, `FailureStopsTheProgram`).
- Lexer.SkipWhitespace, Lexer.NextToken, Lexer.ReadToken: their own contracts
  state validity, monotonicity and where the loop stops. The rest of the
  behaviour is stated by the lemmas after them: which characters are skipped,
  how rows and columns are counted, and what each kind of character produces.
- `Token::Dump`: it only prints.
- Lexer.NextToken: the accumulator is an unbounded integer.
  - The source's `int` overflow is undefined behaviour and is not modelled as
    wrap-around.
  - DigitLoopStaysInRange shows the accumulator never leaves the 32-bit range
    when the run's value fits.
- Lexer.ScanDigits: it advances the cursor once per digit. The source never
  advances it (see Findings).
- Semantic.SemaAssignExprNode: the operands are `Node` values, not nullable
  pointers. The source's `assert(left && right)` rules out null operands.
- SymbolTable.ExitScope, SymbolTable.AddSymbol, SymbolTable.FindVarSymbolInCurrEnv:
  these require a non-empty frame stack, because `pop_back` and `back` on an
  empty vector are undefined.
- Semantic.SemaVariableDeclNode, Semantic.ExitScope: these require a non-empty
  frame stack for the same reason; they reach `back` and `pop_back` through the
  scope.

## Findings

| source | as written | input that shows it | evidently intended | confidence | as-written member | corrected member |
|---|---|---|---|---|---|---|
| src/Lexer.cpp:37-39 | the digit loop accumulates the digit under `workPtr` but never advances `workPtr`, so once the guard holds it holds for ever; the loop never exits, and the accumulator overflows | the source text `7`: the cursor stays on `7` and after ten turns the accumulator is 7777777777, above `__INT_MAX__` | advance `workPtr` once per digit, so the loop consumes the maximal digit run and the token's value is its decimal value | high; not executed | Lexer.AsWrittenDigitLoopOverflowsOnSeven | Lexer.CorrectedDigitLoopOnSeven |

=== FILE: arith_ast.dfy ===
/** The expression tree the arithmetic parser builds (src/Ast.cpp): number
    leaves and binary nodes over the `Add`, `Sub`, `Mul` and `Div` codes of
    src/include/Ast.h, and a program holding expressions in order. */
module ArithAst {
  import Ast

  datatype Expr =
    | Factor(number: int)
    | BinaryExpr(leftExpr: Expr, op: Ast.OpCode, rightExpr: Expr)

  datatype Program = Program(exprs: seq<Expr>)

  /** The operators the arithmetic parser can emit. */
  predicate IsArith(op: Ast.OpCode) {
    op == Ast.Add || op == Ast.Sub || op == Ast.Mul || op == Ast.Div
  }

  /** Every operator in the tree is one the arithmetic parser emits. */
  predicate WellFormed(e: Expr) {
    match e
    case Factor(_) => true
    case BinaryExpr(l, op, r) => IsArith(op) && WellFormed(l) && WellFormed(r)
  }
}

=== FILE: ast.dfy ===
/** The AST of the newer front end (src/include/Ast.h): a closed set of node
    classes, each tagged with its own `Nodekind`, plus the operator codes.
    Child pointers that may be null are `Option<Node>`; the visitor hook is
    replaced by pattern matching. */
module Ast {
  import opened Wrappers
  import opened CTypes
  import Tokens

  /** The node kinds in declaration order. */
  datatype NodeKind =
    | ND_DeclStmts
    | ND_BlockStmts
    | ND_VariableDecl
    | ND_IfStmt
    | ND_ForStmt
    | ND_BreakStmt
    | ND_ContinueStmt
    | ND_BinaryExpr
    | ND_NumberExpr
    | ND_VariableAssessExpr
    | ND_AssignExpr

  /** The integer the C++ enum gives each kind. */
  function Ordinal(k: NodeKind): nat {
    match k
    case ND_DeclStmts => 0
    case ND_BlockStmts => 1
    case ND_VariableDecl => 2
    case ND_IfStmt => 3
    case ND_ForStmt => 4
    case ND_BreakStmt => 5
    case ND_ContinueStmt => 6
    case ND_BinaryExpr => 7
    case ND_NumberExpr => 8
    case ND_VariableAssessExpr => 9
    case ND_AssignExpr => 10
  }

  datatype OpCode =
    | Add
    | Sub
    | Mul
    | Div
    | EqualEqual
    | NotEqual
    | Less
    | Greater
    | LessEqual
    | GreaterEqual

  /** Every node carries the base-class fields `cType` and `token`. The
      break/continue back-reference is not part of the model. */
  datatype Node =
    | DeclStmts(cType: Option<CType>, token: Tokens.Token, nodeVec: seq<Node>)
    | BlockStmts(cType: Option<CType>, token: Tokens.Token, nodeVec: seq<Node>)
    | VariableDecl(cType: Option<CType>, token: Tokens.Token)
    | IfStmt(cType: Option<CType>, token: Tokens.Token,
             condExpr: Option<Node>, thenStmt: Option<Node>, elseStmt: Option<Node>)
    | ForStmt(cType: Option<CType>, token: Tokens.Token,
              initNode: Option<Node>, condNode: Option<Node>,
              thenNode: Option<Node>, bodyNode: Option<Node>)
    | BreakStmt(cType: Option<CType>, token: Tokens.Token)
    | ContinueStmt(cType: Option<CType>, token: Tokens.Token)
    | BinaryExpr(cType: Option<CType>, token: Tokens.Token,
                 op: OpCode, leftExpr: Option<Node>, rightExpr: Option<Node>)
    | NumberExpr(cType: Option<CType>, token: Tokens.Token)
    | VariableAssessExpr(cType: Option<CType>, token: Tokens.Token)
    | AssignExpr(cType: Option<CType>, token: Tokens.Token,
                 leftExpr: Option<Node>, rightExpr: Option<Node>)
  {
    /** The `nodeKind` each class's constructor passes to the base class. */
    function Kind(): NodeKind {
      match this
      case DeclStmts(_, _, _) => ND_DeclStmts
      case BlockStmts(_, _, _) => ND_BlockStmts
      case VariableDecl(_, _) => ND_VariableDecl
      case IfStmt(_, _, _, _, _) => ND_IfStmt
      case ForStmt(_, _, _, _, _, _) => ND_ForStmt
      case BreakStmt(_, _) => ND_BreakStmt
      case ContinueStmt(_, _) => ND_ContinueStmt
      case BinaryExpr(_, _, _, _, _) => ND_BinaryExpr
      case NumberExpr(_, _) => ND_NumberExpr
      case VariableAssessExpr(_, _) => ND_VariableAssessExpr
      case AssignExpr(_, _, _, _) => ND_AssignExpr
    }
  }

  /** The program root: top-level statements in order. */
  datatype Program = Program(stmts: seq<Node>)

  /** `X::classof(node)`: compares the stored kind with `ND_X`. */
  predicate ClassOf(kind: NodeKind, n: Node) {
    Ordinal(n.Kind()) == Ordinal(kind)
  }

  /** A node as its no-argument constructor leaves it: default token, null
      type, no children. */
  predicate Bare(n: Node) {
    && n.token == Tokens.Default()
    && n.cType == None
    && (n.DeclStmts? || n.BlockStmts? ==> n.nodeVec == [])
    && (n.IfStmt? ==> n.condExpr == None && n.thenStmt == None && n.elseStmt == None)
    && (n.ForStmt? ==> n.initNode == None && n.condNode == None
                       && n.thenNode == None && n.bodyNode == None)
  }

  /** The no-argument constructors (every class except `BinaryExpr` and
      `AssignExpr`, which have none): the node has the requested kind, and
      only that kind's `classof` accepts it. `ASTNode(kind)` leaves `cType`
      uninitialised; the model uses a null type. */
  function Make(kind: NodeKind): (n: Node)
    requires kind != ND_BinaryExpr && kind != ND_AssignExpr
    ensures ClassOf(kind, n) && Bare(n)
    ensures forall other: NodeKind :: ClassOf(other, n) <==> other == kind
  {
    var t := Tokens.Default();
    match kind
    case ND_DeclStmts => DeclStmts(None, t, [])
    case ND_BlockStmts => BlockStmts(None, t, [])
    case ND_VariableDecl => VariableDecl(None, t)
    case ND_IfStmt => IfStmt(None, t, None, None, None)
    case ND_ForStmt => ForStmt(None, t, None, None, None, None)
    case ND_BreakStmt => BreakStmt(None, t)
    case ND_ContinueStmt => ContinueStmt(None, t)
    case ND_NumberExpr => NumberExpr(None, t)
    case ND_VariableAssessExpr => VariableAssessExpr(None, t)
  }

  /** `BinaryExpr(left, op, right)` stores its three arguments unchanged. */
  function NewBinaryExpr(left: Option<Node>, op: OpCode, right: Option<Node>): (n: Node)
    ensures ClassOf(ND_BinaryExpr, n) && n.BinaryExpr?
    ensures n.leftExpr == left && n.op == op && n.rightExpr == right
    ensures n.token == Tokens.Default()
  {
    BinaryExpr(None, Tokens.Default(), op, left, right)
  }

  /** `AssignExpr(left, right)` stores both operands unchanged. */
  function NewAssignExpr(left: Option<Node>, right: Option<Node>): (n: Node)
    ensures ClassOf(ND_AssignExpr, n) && n.AssignExpr?
    ensures n.leftExpr == left && n.rightExpr == right
    ensures n.token == Tokens.Default()
  {
    AssignExpr(None, Tokens.Default(), left, right)
  }

  /** The enum values are pairwise distinct, so `classof` accepts a node for
      its own kind and for no other. */
  lemma ClassOfIsExactlyOwnKind(n: Node, kind: NodeKind)
    ensures ClassOf(kind, n) <==> n.Kind() == kind
  {
  }

  /** `llvm::isa<VariableAssessExpr>` through `classof` is the variant test. */
  lemma ClassOfVariableAccess(n: Node)
    ensures ClassOf(ND_VariableAssessExpr, n) <==> n.VariableAssessExpr?
  {
  }
}

=== FILE: ctype.dfy ===
/** The compiler's only built-in type: a 4-byte, 4-aligned `int`
    (src/include/CType.h, src/CType.cpp). The source hands out a single
    shared instance; as a value type one constructor is enough. */
module CTypes {

  datatype CTypeKind = Int

  datatype CType = CType(size: int, align: int, kind: CTypeKind)

  /** The singleton returned by `CType::getIntTy`. */
  function IntTy(): CType {
    CType(4, 4, Int)
  }
}

=== FILE: lexer.dfy ===
/** The arithmetic lexer (src/Lexer.cpp with its header src/Lexer.h): a
    cursor over the source text that skips blanks, tracks the current row
    and the start of the current line, and recognises decimal numbers.
    The source buffer is NUL-terminated, so reading one past the last
    character yields '\0'; `At` models that read. */
module Lexer {

  /** The ten token kinds of src/Lexer.h. */
  datatype TokenKind =
    | Unknown
    | Number
    | Minus
    | Plus
    | Star
    | Slash
    | LeftParent
    | RightParent
    | Semi
    | Eof

  /** `__INT_MAX__` for a 32-bit `int`. */
  const IntMax: int := 0x7fff_ffff

  datatype Token = Token(row: int, col: int, kind: TokenKind, value: int)

  /** The default `Token()` of src/Lexer.h. */
  function DefaultToken(): (t: Token)
    ensures t.row == -1 && t.col == -1 && t.kind == Unknown && t.value == IntMax
  {
    Token(-1, -1, Unknown, IntMax)
  }

  /** The cursor: `workPtr`, `workRowHeadPtr` and `workRow` as offsets into
      `src`; `eofPtr` is `|src|`. */
  datatype Lexer = Lexer(src: string, cursor: nat, lineStart: nat, row: int) {
    ghost predicate Valid() {
      lineStart <= cursor <= |src| && row >= 1
    }
  }

  /** One step of the lexer: the cursor after the call and the token
      written through the reference parameter. */
  datatype Step = Step(lexer: Lexer, token: Token)

  /** The character under a cursor; the terminating NUL past the end. */
  function At(src: string, i: nat): char {
    if i < |src| then src[i] else '\0'
  }

  predicate IsWhiteSpace(ch: char) {
    ch == ' ' || ch == '\r' || ch == '\n'
  }

  predicate IsDigit(ch: char) {
    '0' <= ch <= '9'
  }

  function DigitValue(ch: char): int
    requires IsDigit(ch)
  {
    ch as int - '0' as int
  }

  function Pow10(n: nat): (p: nat)
    ensures p >= 1
  {
    if n == 0 then 1 else 10 * Pow10(n - 1)
  }

  /** The positional value of a run of decimal digits: each digit weighted
      by ten to the number of digits after it. */
  function DecimalValue(s: string): (v: nat)
    requires forall k | 0 <= k < |s| :: IsDigit(s[k])
  {
    if |s| == 0 then 0 else DigitValue(s[0]) * Pow10(|s| - 1) + DecimalValue(s[1..])
  }

  /** The number of newlines among `src[a..b]`. */
  function NewlinesBetween(src: string, a: nat, b: nat): nat
    requires a <= b <= |src|
    decreases b - a
  {
    if a == b then 0 else (if src[a] == '\n' then 1 else 0) + NewlinesBetween(src, a + 1, b)
  }

  /** The constructor: cursor and line start at the first character, row 1. */
  function New(src: string): (lx: Lexer)
    ensures lx.src == src && lx.cursor == 0 && lx.lineStart == 0 && lx.row == 1
    ensures lx.Valid()
  {
    Lexer(src, 0, 0, 1)
  }

  /** One turn of the blank-skipping loop: step over the blank, and on a
      newline count a row and start a new line after it. */
  function SkipOne(lx: Lexer): (r: Lexer)
    requires lx.Valid() && lx.cursor < |lx.src|
    ensures r.Valid() && r.src == lx.src && r.cursor == lx.cursor + 1
  {
    var c := lx.cursor;
    if lx.src[c] == '\n' then lx.(row := lx.row + 1, lineStart := c + 1, cursor := c + 1)
    else lx.(cursor := c + 1)
  }

  /** The blank-skipping loop at the head of `NextToken`: it stops at the end
      of input or on a character that is not blank, and never moves the
      cursor or the row backwards. */
  function SkipWhitespace(lx: Lexer): (r: Lexer)
    requires lx.Valid()
    ensures r.Valid() && r.src == lx.src
    ensures lx.cursor <= r.cursor && lx.row <= r.row
    ensures r.cursor == |r.src| || !IsWhiteSpace(r.src[r.cursor])
    decreases |lx.src| - lx.cursor
  {
    if IsWhiteSpace(At(lx.src, lx.cursor)) then SkipWhitespace(SkipOne(lx)) else lx
  }

  /** Only blanks are skipped. */
  lemma {:induction false} SkipsOnlyBlanks(lx: Lexer)
    requires lx.Valid()
    ensures forall k | lx.cursor <= k < SkipWhitespace(lx).cursor :: IsWhiteSpace(lx.src[k])
    decreases |lx.src| - lx.cursor
  {
    if IsWhiteSpace(At(lx.src, lx.cursor)) {
      SkipsOnlyBlanks(SkipOne(lx));
    }
  }

  /** Each skipped newline adds exactly one to the row. */
  lemma {:induction false} SkipCountsNewlines(lx: Lexer)
    requires lx.Valid()
    ensures SkipWhitespace(lx).row
            == lx.row + NewlinesBetween(lx.src, lx.cursor, SkipWhitespace(lx).cursor)
    decreases |lx.src| - lx.cursor
  {
    if IsWhiteSpace(At(lx.src, lx.cursor)) {
      SkipCountsNewlines(SkipOne(lx));
    }
  }

  /** After skipping, the line starts just past the last skipped newline, or
      where it started if no newline was skipped. */
  lemma {:induction false} SkipTracksLineStart(lx: Lexer)
    requires lx.Valid()
    ensures var r := SkipWhitespace(lx);
            || (r.lineStart == lx.lineStart
                && forall k | lx.cursor <= k < r.cursor :: lx.src[k] != '\n')
            || (lx.cursor < r.lineStart <= r.cursor && lx.src[r.lineStart - 1] == '\n'
                && forall k | r.lineStart <= k < r.cursor :: lx.src[k] != '\n')
    decreases |lx.src| - lx.cursor
  {
    if IsWhiteSpace(At(lx.src, lx.cursor)) {
      SkipTracksLineStart(SkipOne(lx));
    }
  }

  /** The digit loop of `NextToken` with the cursor advanced once per digit:
      it consumes the maximal digit run starting at `i` and accumulates
      `number * 10 + digit` for each digit. */
  function ScanDigits(src: string, i: nat, number: int): (r: (nat, int))
    requires i <= |src|
    ensures i <= r.0 <= |src|
    ensures forall k | i <= k < r.0 :: IsDigit(src[k])
    ensures !IsDigit(At(src, r.0))
    decreases |src| - i
  {
    if IsDigit(At(src, i)) then ScanDigits(src, i + 1, number * 10 + DigitValue(src[i]))
    else (i, number)
  }

  /** The accumulator ends up holding the starting value shifted past the
      run, plus the decimal value of the run. */
  lemma {:induction false} ScanDigitsValue(src: string, i: nat, number: int)
    requires i <= |src|
    ensures var r := ScanDigits(src, i, number);
            r.1 == number * Pow10(r.0 - i) + DecimalValue(src[i..r.0])
    decreases |src| - i
  {
    if IsDigit(At(src, i)) {
      var d := DigitValue(src[i]);
      var r := ScanDigits(src, i + 1, number * 10 + d);
      var m := r.0 - (i + 1);
      ScanDigitsValue(src, i + 1, number * 10 + d);
      assert src[i..r.0][1..] == src[i + 1..r.0];
      assert DecimalValue(src[i..r.0]) == d * Pow10(m) + DecimalValue(src[i + 1..r.0]);
      ShiftDigit(number, d, m);
    }
  }

  /** Appending one digit to an accumulator and then shifting it `m` places
      is shifting the accumulator `m + 1` places and the digit `m` places. */
  lemma ShiftDigit(number: int, d: int, m: nat)
    ensures (number * 10 + d) * Pow10(m) == number * Pow10(m + 1) + d * Pow10(m)
  {
    var p := Pow10(m);
    assert Pow10(m + 1) == 10 * p;
    calc {
      (number * 10 + d) * p;
      number * 10 * p + d * p;
      { assert number * 10 * p == number * (10 * p); }
      number * Pow10(m + 1) + d * p;
    }
  }

  /** Skipping blanks from a position that is not blank changes nothing. */
  lemma SkipAtNonBlank(lx: Lexer)
    requires lx.Valid()
    requires lx.cursor == |lx.src| || !IsWhiteSpace(lx.src[lx.cursor])
    ensures SkipWhitespace(lx) == lx
  {
  }

  /** `NextToken`. It first skips blanks, then reads a token at the first
      character that is not blank. */
  function NextToken(lx: Lexer, tok: Token): (r: Step)
    requires lx.Valid()
    ensures r.lexer.Valid() && r.lexer.src == lx.src
    ensures lx.cursor <= r.lexer.cursor && lx.row <= r.lexer.row
    ensures r.token.row == r.lexer.row && r.token.col >= 1
  {
    ReadToken(SkipWhitespace(lx), tok)
  }

  /** The rest of `NextToken`, after the blanks: stamp the token with the
      current row and with the distance from the line start plus one as its
      column; at the end of input make it `Eof`; on a digit scan the run
      into a `Number`; on anything else leave kind and value alone. */
  function ReadToken(s: Lexer, tok: Token): (r: Step)
    requires s.Valid()
    ensures r.lexer.Valid() && r.lexer.src == s.src
    ensures s.cursor <= r.lexer.cursor && r.lexer.row == s.row
    ensures r.token.row == r.lexer.row && r.token.col >= 1
  {
    var positioned := tok.(row := s.row, col := s.cursor - s.lineStart + 1);
    if s.cursor >= |s.src| then
      Step(s, positioned.(kind := Eof))
    else if IsDigit(At(s.src, s.cursor)) then
      var (end, number) := ScanDigits(s.src, s.cursor, 0);
      Step(s.(cursor := end), positioned.(kind := Number, value := number))
    else
      Step(s, positioned)
  }

  /** The token's row counts the newlines skipped before it; its column is
      measured from the start of the line it is on. */
  lemma TokenPosition(lx: Lexer, tok: Token)
    requires lx.Valid()
    ensures var s := SkipWhitespace(lx);
            var t := NextToken(lx, tok).token;
            && t.row == lx.row + NewlinesBetween(lx.src, lx.cursor, s.cursor)
            && t.col == s.cursor - s.lineStart + 1
  {
    SkipCountsNewlines(lx);
  }

  /** At the end of input the token becomes `Eof`, keeps its value, and the
      cursor stays after the skipped blanks. */
  lemma EofAtEnd(lx: Lexer, tok: Token)
    requires lx.Valid()
    requires SkipWhitespace(lx).cursor == |lx.src|
    ensures var r := NextToken(lx, tok);
            r.token.kind == Eof && r.token.value == tok.value && r.lexer == SkipWhitespace(lx)
  {
  }

  /** A digit run becomes a `Number` whose value is the decimal value of the
      whole run; the cursor moves just past the run, and nothing else of the
      lexer changes: the row and the line start stay as the blanks left them. */
  lemma NumberToken(lx: Lexer, tok: Token)
    requires lx.Valid()
    requires var s := SkipWhitespace(lx);
             s.cursor < |lx.src| && IsDigit(lx.src[s.cursor])
    ensures var s := SkipWhitespace(lx);
            var r := NextToken(lx, tok);
            && r.token.kind == Number
            && s.cursor < r.lexer.cursor
            && (forall k | s.cursor <= k < r.lexer.cursor :: IsDigit(lx.src[k]))
            && !IsDigit(At(lx.src, r.lexer.cursor))
            && r.token.value == DecimalValue(lx.src[s.cursor..r.lexer.cursor])
            && r.lexer == s.(cursor := r.lexer.cursor)
  {
    var s := SkipWhitespace(lx);
    ScanDigitsValue(lx.src, s.cursor, 0);
  }

  /** Any other character only gets its position written: the token keeps
      its kind and value, and the cursor does not move past it. */
  lemma OtherCharacterKeepsToken(lx: Lexer, tok: Token)
    requires lx.Valid()
    requires var s := SkipWhitespace(lx);
             s.cursor < |lx.src| && !IsDigit(lx.src[s.cursor])
    ensures NextToken(lx, tok).token.kind == tok.kind
    ensures NextToken(lx, tok).token.value == tok.value
    ensures NextToken(lx, tok).lexer == SkipWhitespace(lx)
  {
  }

  /** Once the blanks run out at the end of input, every further call yields
      `Eof` at the same position and leaves the cursor where it is. */
  lemma EofIsSticky(lx: Lexer, tok: Token, later: Token)
    requires lx.Valid()
    requires SkipWhitespace(lx).cursor == |lx.src|
    ensures var r := NextToken(lx, tok);
            var r2 := NextToken(r.lexer, later);
            && r.token.kind == Eof && r2.token.kind == Eof
            && r2.lexer == r.lexer
            && r2.token.row == r.token.row && r2.token.col == r.token.col
  {
    EofAtEnd(lx, tok);
    var r := NextToken(lx, tok);
    SkipAtNonBlank(r.lexer);
    EofAtEnd(r.lexer, later);
  }

  /** On a character that is neither blank nor digit the lexer makes no
      progress: the next call sees the same character and returns the same
      step again. */
  lemma UnknownCharacterStalls(lx: Lexer, tok: Token)
    requires lx.Valid()
    requires var s := SkipWhitespace(lx);
             s.cursor < |lx.src| && !IsDigit(lx.src[s.cursor])
    ensures var r := NextToken(lx, tok);
            && r.lexer == SkipWhitespace(lx)
            && NextToken(r.lexer, r.token) == r
  {
    var s := SkipWhitespace(lx);
    var r := NextToken(lx, tok);
    OtherCharacterKeepsToken(lx, tok);
    TokenPosition(lx, tok);
    assert r.token.col == s.cursor - s.lineStart + 1;
    PositionOnly(s, r.token);
    assert r.token.(row := s.row, col := s.cursor - s.lineStart + 1) == r.token;
  }

  /** At a character that is neither blank nor digit, `NextToken` writes the
      position and nothing else. */
  lemma PositionOnly(lx: Lexer, tok: Token)
    requires lx.Valid() && lx.cursor < |lx.src|
    requires !IsWhiteSpace(lx.src[lx.cursor]) && !IsDigit(lx.src[lx.cursor])
    ensures NextToken(lx, tok) == Step(lx, tok.(row := lx.row, col := lx.cursor - lx.lineStart + 1))
  {
    SkipAtNonBlank(lx);
  }

  /** When the last blank skipped is a newline, the line starts at the cursor. */
  lemma LineStartAfterNewline(lx: Lexer)
    requires lx.Valid()
    requires var s := SkipWhitespace(lx);
             lx.cursor < s.cursor && lx.src[s.cursor - 1] == '\n'
    ensures SkipWhitespace(lx).lineStart == SkipWhitespace(lx).cursor
    ensures SkipWhitespace(lx).row >= lx.row + 1
  {
    var s := SkipWhitespace(lx);
    SkipTracksLineStart(lx);
    SkipCountsNewlines(lx);
    LineStartIsPastLastNewline(lx.src, lx.cursor, lx.lineStart, s.lineStart, s.cursor);
    NewlineCounted(lx.src, lx.cursor, s.cursor);
  }

  /** The line-start bookkeeping of `SkipWhitespace`, read back: if the
      stretch `a..b` ends in a newline, the line start is `b`. */
  lemma LineStartIsPastLastNewline(src: string, a: nat, start0: nat, start: nat, b: nat)
    requires a < b <= |src| && src[b - 1] == '\n'
    requires || (start == start0 && forall k | a <= k < b :: src[k] != '\n')
             || (a < start <= b && src[start - 1] == '\n'
                 && forall k | start <= k < b :: src[k] != '\n')
    ensures start == b
  {
  }

  /** A token that directly follows a newline starts a line: column 1, at
      least one row below the row the call started on. */
  lemma ColumnOneAfterNewline(lx: Lexer, tok: Token)
    requires lx.Valid()
    requires var s := SkipWhitespace(lx);
             lx.cursor < s.cursor && lx.src[s.cursor - 1] == '\n'
    ensures NextToken(lx, tok).token.col == 1
    ensures NextToken(lx, tok).token.row >= lx.row + 1
  {
    LineStartAfterNewline(lx);
    TokenPosition(lx, tok);
  }

  /** A stretch ending in a newline holds at least one newline. */
  lemma {:induction false} NewlineCounted(src: string, a: nat, b: nat)
    requires a < b <= |src| && src[b - 1] == '\n'
    ensures NewlinesBetween(src, a, b) >= 1
    decreases b - a
  {
    if src[a] != '\n' {
      NewlineCounted(src, a + 1, b);
    }
  }

  /** Appending a digit multiplies the value by ten and adds the digit:
      the step the source's loop performs. */
  lemma {:induction false} AppendDigit(s: string, c: char)
    requires forall i | 0 <= i < |s| :: IsDigit(s[i])
    requires IsDigit(c)
    ensures DecimalValue(s + [c]) == DecimalValue(s) * 10 + DigitValue(c)
  {
    var t := s + [c];
    if |s| > 0 {
      assert t[1..] == s[1..] + [c];
      AppendDigit(s[1..], c);
      var d0 := DigitValue(s[0]);
      var p := Pow10(|s| - 1);
      assert Pow10(|t| - 1) == 10 * p;
      assert d0 * (10 * p) == (d0 * p) * 10;
    }
  }

  /** The value of the first `j` digits of a run: what the source's
      accumulator holds after `j` turns. */
  function PrefixValue(run: string, j: nat): nat
    requires forall i | 0 <= i < |run| :: IsDigit(run[i])
    requires j <= |run|
  {
    DecimalValue(run[..j])
  }

  /** One turn of the loop takes the accumulator from the value of `j`
      digits to the value of `j + 1`. */
  lemma PrefixStep(run: string, j: nat)
    requires forall i | 0 <= i < |run| :: IsDigit(run[i])
    requires j < |run|
    ensures PrefixValue(run, j + 1) == PrefixValue(run, j) * 10 + DigitValue(run[j])
  {
    assert run[..j + 1] == run[..j] + [run[j]];
    AppendDigit(run[..j], run[j]);
  }

  /** No prefix of a run is worth more than the whole run. */
  lemma {:induction false} PrefixBounded(run: string, j: nat)
    requires forall i | 0 <= i < |run| :: IsDigit(run[i])
    requires j <= |run|
    ensures PrefixValue(run, j) <= DecimalValue(run)
    decreases |run| - j
  {
    if j == |run| {
      assert run[..j] == run;
    } else {
      PrefixStep(run, j);
      PrefixBounded(run, j + 1);
    }
  }

  /** The source accumulates into a 32-bit `int`, where overflow is
      undefined. When the value of the run fits, so does every value the
      loop computes on the way: turn `j` computes the value of the first
      `j + 1` digits, which never exceeds the whole. */
  lemma DigitLoopStaysInRange(run: string)
    requires forall i | 0 <= i < |run| :: IsDigit(run[i])
    requires DecimalValue(run) <= IntMax
    ensures forall j {:trigger PrefixValue(run, j)} | 0 <= j < |run| ::
              PrefixValue(run, j) * 10 + DigitValue(run[j]) == PrefixValue(run, j + 1) <= IntMax
  {
    forall j {:trigger PrefixValue(run, j)} | 0 <= j < |run|
      ensures PrefixValue(run, j) * 10 + DigitValue(run[j]) == PrefixValue(run, j + 1) <= IntMax
    {
      PrefixStep(run, j);
      PrefixBounded(run, j + 1);
    }
  }

  /** The state of the digit loop: the cursor and the accumulator. */
  datatype DigitLoop = DigitLoop(cursor: nat, number: int)

  /** The digit loop exactly as written at src/Lexer.cpp:37-39, run for at
      most `n` turns: each turn re-tests the guard, accumulates the digit
      under the cursor, and leaves the cursor where it is. */
  function AsWrittenDigitLoop(src: string, st: DigitLoop, n: nat): (r: DigitLoop)
    ensures r.cursor == st.cursor
    decreases n
  {
    if n == 0 || !IsDigit(At(src, st.cursor)) then st
    else AsWrittenDigitLoop(src, st.(number := st.number * 10 + DigitValue(At(src, st.cursor))), n - 1)
  }

  /** `n` ones in decimal: 0, 1, 11, 111, ... */
  function Repunit(n: nat): nat {
    if n == 0 then 0 else Pow10(n - 1) + Repunit(n - 1)
  }

  /** As written, once the guard holds it holds after any number of turns,
      so the loop never exits; meanwhile the accumulator keeps appending the
      same digit. */
  lemma {:induction false} AsWrittenDigitLoopNeverExits(src: string, st: DigitLoop, n: nat)
    requires IsDigit(At(src, st.cursor))
    ensures var r := AsWrittenDigitLoop(src, st, n);
            && IsDigit(At(src, r.cursor))
            && r.number == st.number * Pow10(n) + DigitValue(At(src, st.cursor)) * Repunit(n)
    decreases n
  {
    if n > 0 {
      var d := DigitValue(At(src, st.cursor));
      AsWrittenDigitLoopNeverExits(src, st.(number := st.number * 10 + d), n - 1);
      ShiftDigit(st.number, d, n - 1);
      assert d * Repunit(n) == d * Pow10(n - 1) + d * Repunit(n - 1);
    }
  }

  /** As written, lexing "7" spins with the cursor on the '7' and the
      accumulator passes `IntMax` within ten turns (7777777777). */
  lemma AsWrittenDigitLoopOverflowsOnSeven(src: string)
    requires src == "7"
    ensures AsWrittenDigitLoop(src, DigitLoop(0, 0), 10) == DigitLoop(0, 7777777777)
    ensures 7777777777 > IntMax
  {
    AsWrittenDigitLoopNeverExits(src, DigitLoop(0, 0), 10);
    TenOnes();
    assert DigitValue(At(src, 0)) == 7;
  }

  lemma TenOnes()
    ensures Repunit(10) == 1111111111
  {
    assert Pow10(3) == 1000;
    assert Pow10(6) == 1000000;
    assert Pow10(9) == 1000000000;
    assert Repunit(3) == 111;
    assert Repunit(6) == 111111;
    assert Repunit(9) == 111111111;
  }

  /** With the cursor advanced once per digit, lexing "7" stops after one
      character with the value 7. */
  lemma CorrectedDigitLoopOnSeven(src: string)
    requires src == "7"
    ensures ScanDigits(src, 0, 0) == (1, 7)
    ensures NextToken(New(src), DefaultToken()).token == Token(1, 1, Number, 7)
  {
    SkipAtNonBlank(New(src));
  }

  /** Two lines of numbers: positions restart at column 1 on the second
      line, and `Eof` keeps the last value. */
  lemma TwoLineExample(src: string)
    requires src == "12 3\n45"
    ensures var s1 := NextToken(New(src), DefaultToken());
            var s2 := NextToken(s1.lexer, s1.token);
            var s3 := NextToken(s2.lexer, s2.token);
            var s4 := NextToken(s3.lexer, s3.token);
            && s1.token == Token(1, 1, Number, 12)
            && s2.token == Token(1, 4, Number, 3)
            && s3.token == Token(2, 1, Number, 45)
            && s4.token == Token(2, 3, Eof, 45)
  {
    FirstLineFirstNumber(src);
    FirstLineSecondNumber(src);
    SecondLineNumber(src);
    SecondLineEnd(src);
  }

  lemma FirstLineFirstNumber(src: string)
    requires src == "12 3\n45"
    ensures NextToken(Lexer(src, 0, 0, 1), DefaultToken()) == Step(Lexer(src, 2, 0, 1), Token(1, 1, Number, 12))
  {
    SkipAtNonBlank(Lexer(src, 0, 0, 1));
    assert ScanDigits(src, 2, 12) == (2, 12);
    assert ScanDigits(src, 1, 1) == (2, 12);
  }

  lemma FirstLineSecondNumber(src: string)
    requires src == "12 3\n45"
    ensures NextToken(Lexer(src, 2, 0, 1), Token(1, 1, Number, 12)) == Step(Lexer(src, 4, 0, 1), Token(1, 4, Number, 3))
  {
    SkipAtNonBlank(Lexer(src, 3, 0, 1));
    assert SkipWhitespace(Lexer(src, 2, 0, 1)) == Lexer(src, 3, 0, 1);
    assert ScanDigits(src, 4, 3) == (4, 3);
  }

  lemma SecondLineNumber(src: string)
    requires src == "12 3\n45"
    ensures NextToken(Lexer(src, 4, 0, 1), Token(1, 4, Number, 3)) == Step(Lexer(src, 7, 5, 2), Token(2, 1, Number, 45))
  {
    SkipAtNonBlank(Lexer(src, 5, 5, 2));
    assert SkipWhitespace(Lexer(src, 4, 0, 1)) == Lexer(src, 5, 5, 2);
    assert ScanDigits(src, 7, 45) == (7, 45);
    assert ScanDigits(src, 6, 4) == (7, 45);
  }

  lemma SecondLineEnd(src: string)
    requires src == "12 3\n45"
    ensures NextToken(Lexer(src, 7, 5, 2), Token(2, 1, Number, 45)) == Step(Lexer(src, 7, 5, 2), Token(2, 3, Eof, 45))
  {
    SkipAtNonBlank(Lexer(src, 7, 5, 2));
  }
}

=== FILE: parser.dfy ===
/** The arithmetic parser (src/Parser.cpp, grammar in src/include/Parser.h):
    a recursive-descent cascade `prog / expr / term / factor` over the tokens
    of the arithmetic lexer. The lexer is abstracted as a token stream: a
    finite sequence whose last token is `Eof`, which the lexer repeats for
    ever once the input is exhausted. Positions count every `Advance`, so
    they may run past the end, where the stream keeps yielding that `Eof`. */
module Parser {
  import opened Wrappers
  import opened ArithAst
  import Ast
  import L = Lexer

  type TokenStream = s: seq<L.Token> | |s| > 0 && s[|s| - 1].kind == L.Eof
    witness [L.Token(1, 1, L.Eof, 0)]

  /** The only way the parser stops early: `assert(IsExcept(RightParent))`
      failing after a parenthesised expression. */
  datatype ParseError = MissingRightParent(pos: nat)

  /** An expression and the position just after it. */
  datatype Parsed = Parsed(expr: Expr, pos: nat)

  /** The current token at a position. */
  function Peek(toks: TokenStream, pos: nat): L.Token {
    if pos < |toks| then toks[pos] else toks[|toks| - 1]
  }

  /** Tokens left before the repeating `Eof`; the termination measure. */
  function Remaining(toks: TokenStream, pos: nat): nat {
    if pos < |toks| then |toks| - pos else 0
  }

  /** A position whose token is not `Eof` lies before the last token, so
      advancing over it shrinks what remains. */
  lemma NotEofIsInside(toks: TokenStream, pos: nat)
    requires Peek(toks, pos).kind != L.Eof
    ensures pos < |toks| - 1
    ensures Remaining(toks, pos + 1) < Remaining(toks, pos)
  {
  }

  /** `IsExcept`: compares the current kind and consumes nothing. */
  predicate IsExcept(toks: TokenStream, pos: nat, kind: L.TokenKind) {
    Peek(toks, pos).kind == kind
  }

  /** `Consume`: on the expected kind, advance and answer true; otherwise
      answer false and stay. */
  function Consume(toks: TokenStream, pos: nat, kind: L.TokenKind): (r: (bool, nat))
    ensures r.0 <==> Peek(toks, pos).kind == kind
    ensures r.1 == if r.0 then pos + 1 else pos
  {
    if IsExcept(toks, pos, kind) then (true, pos + 1) else (false, pos)
  }

  /** `factor : number | "(" expr ")"`. A left parenthesis yields the inner
      expression itself, which must be followed by a right parenthesis; any
      other token becomes a number leaf carrying that token's value. */
  function ParseFactor(toks: TokenStream, pos: nat): (r: Result<Parsed, ParseError>)
    ensures r.Success? ==> r.value.pos > pos && WellFormed(r.value.expr)
    decreases Remaining(toks, pos), 0
  {
    if IsExcept(toks, pos, L.LeftParent) then
      NotEofIsInside(toks, pos);
      match ParseExpr(toks, pos + 1)
      case Failure(err) => Failure(err)
      case Success(inner) =>
        if IsExcept(toks, inner.pos, L.RightParent) then Success(Parsed(inner.expr, inner.pos + 1))
        else Failure(MissingRightParent(inner.pos))
    else
      Success(Parsed(Factor(Peek(toks, pos).value), pos + 1))
  }

  /** `term : factor (("*" | "/") factor)*`. */
  function ParseTerm(toks: TokenStream, pos: nat): (r: Result<Parsed, ParseError>)
    ensures r.Success? ==> r.value.pos > pos && WellFormed(r.value.expr)
    decreases Remaining(toks, pos), 2
  {
    match ParseFactor(toks, pos)
    case Failure(err) => Failure(err)
    case Success(first) => TermTail(toks, first.expr, first.pos)
  }

  /** The loop of `ParserTerm`: while the current token is `*` or `/`, fold
      the next factor into the left operand. */
  function TermTail(toks: TokenStream, left: Expr, pos: nat): (r: Result<Parsed, ParseError>)
    requires WellFormed(left)
    ensures r.Success? ==> r.value.pos >= pos && WellFormed(r.value.expr)
    decreases Remaining(toks, pos), 1
  {
    var kind := Peek(toks, pos).kind;
    if kind == L.Star || kind == L.Slash then
      NotEofIsInside(toks, pos);
      var op := if kind == L.Star then Ast.Mul else Ast.Div;
      match ParseFactor(toks, pos + 1)
      case Failure(err) => Failure(err)
      case Success(right) => TermTail(toks, BinaryExpr(left, op, right.expr), right.pos)
    else
      Success(Parsed(left, pos))
  }

  /** `expr : term (("+" | "-") term)*`. */
  function ParseExpr(toks: TokenStream, pos: nat): (r: Result<Parsed, ParseError>)
    ensures r.Success? ==> r.value.pos > pos && WellFormed(r.value.expr)
    decreases Remaining(toks, pos), 4
  {
    match ParseTerm(toks, pos)
    case Failure(err) => Failure(err)
    case Success(first) => ExprTail(toks, first.expr, first.pos)
  }

  /** The loop of `ParserExpr`: while the current token is `+` or `-`, fold
      the next term into the left operand. */
  function ExprTail(toks: TokenStream, left: Expr, pos: nat): (r: Result<Parsed, ParseError>)
    requires WellFormed(left)
    ensures r.Success? ==> r.value.pos >= pos && WellFormed(r.value.expr)
    decreases Remaining(toks, pos), 3
  {
    var kind := Peek(toks, pos).kind;
    if kind == L.Plus || kind == L.Minus then
      NotEofIsInside(toks, pos);
      var op := if kind == L.Plus then Ast.Add else Ast.Sub;
      match ParseTerm(toks, pos + 1)
      case Failure(err) => Failure(err)
      case Success(right) => ExprTail(toks, BinaryExpr(left, op, right.expr), right.pos)
    else
      Success(Parsed(left, pos))
  }

  /** The loop of `ParserProgram` from a position, with the expressions
      gathered so far: stop at `Eof`, skip `;`, otherwise parse one
      expression and append it. */
  function ProgramLoop(toks: TokenStream, pos: nat, acc: seq<Expr>): (r: Result<Program, ParseError>)
    requires forall i | 0 <= i < |acc| :: WellFormed(acc[i])
    ensures r.Success? ==> |r.value.exprs| >= |acc| && r.value.exprs[..|acc|] == acc
    ensures r.Success? ==> forall i | 0 <= i < |r.value.exprs| :: WellFormed(r.value.exprs[i])
    decreases Remaining(toks, pos)
  {
    var kind := Peek(toks, pos).kind;
    if kind == L.Eof then
      Success(Program(acc))
    else
      NotEofIsInside(toks, pos);
      if kind == L.Semi then
        ProgramLoop(toks, pos + 1, acc)
      else
        match ParseExpr(toks, pos)
        case Failure(err) => Failure(err)
        case Success(e) => ProgramLoop(toks, e.pos, acc + [e.expr])
  }

  /** `ParserProgram`: the parser is primed with the first token of the
      stream and runs the loop from there. */
  function ParseProgram(toks: TokenStream): (r: Result<Program, ParseError>)
    ensures r.Success? ==> forall i | 0 <= i < |r.value.exprs| :: WellFormed(r.value.exprs[i])
  {
    ProgramLoop(toks, 0, [])
  }
}

=== FILE: parser_proofs.dfy ===
/** What the arithmetic parser's grammar promises, stated against a printer
    that writes an expression with the fewest parentheses the grammar
    needs: parsing the printed tokens gives back the same tree. Because the
    printer leaves out every parenthesis that precedence and left
    associativity make redundant, the round trip pins down both: `*` and `/`
    bind tighter than `+` and `-`, and each tier groups to the left. */
module ParserProofs {
  import opened Wrappers
  import opened ArithAst
  import opened Parser
  import Ast
  import L = Lexer

  /** A printed token. Its position and, apart from a number, its value are
      placeholders: `Matches` below ignores both. */
  function Tok(kind: L.TokenKind, value: int): L.Token {
    L.Token(1, 1, kind, value)
  }

  /** The token spelling an arithmetic operator; no other operator can
      occur in a well-formed expression. */
  function OpToken(op: Ast.OpCode): L.Token {
    match op
    case Add => Tok(L.Plus, 0)
    case Sub => Tok(L.Minus, 0)
    case Mul => Tok(L.Star, 0)
    case Div => Tok(L.Slash, 0)
    case _ => Tok(L.Unknown, 0)
  }

  predicate IsAdditive(e: Expr) {
    e.BinaryExpr? && (e.op == Ast.Add || e.op == Ast.Sub)
  }

  predicate IsMultiplicative(e: Expr) {
    e.BinaryExpr? && (e.op == Ast.Mul || e.op == Ast.Div)
  }

  function Size(e: Expr): nat {
    match e
    case Factor(_) => 1
    case BinaryExpr(l, _, r) => 1 + Size(l) + Size(r)
  }

  /** The order in which the three tiers (0 factor, 1 term, 2 expression)
      hand the same expression to one another before it shrinks: a product
      goes factor, expression, term; a sum goes term, factor, expression. */
  function Rank(e: Expr, tier: nat): nat {
    if IsMultiplicative(e) then (if tier == 0 then 2 else if tier == 2 then 1 else 0)
    else if IsAdditive(e) then (if tier == 1 then 2 else if tier == 0 then 1 else 0)
    else tier
  }

  /** Printed at the `expr` tier: a sum chain is its left operand at this
      tier, the operator, and its right operand at the `term` tier. */
  function PrintExpr(e: Expr): seq<L.Token>
    requires WellFormed(e)
    decreases Size(e), Rank(e, 2)
  {
    if IsAdditive(e) then PrintExpr(e.leftExpr) + [OpToken(e.op)] + PrintTerm(e.rightExpr)
    else PrintTerm(e)
  }

  /** Printed at the `term` tier: a product chain is its left operand at
      this tier, the operator, and its right operand as a factor. */
  function PrintTerm(e: Expr): seq<L.Token>
    requires WellFormed(e)
    decreases Size(e), Rank(e, 1)
  {
    if IsMultiplicative(e) then PrintTerm(e.leftExpr) + [OpToken(e.op)] + PrintFactor(e.rightExpr)
    else PrintFactor(e)
  }

  /** Printed as a factor: a number token, or the whole expression in
      parentheses. */
  function PrintFactor(e: Expr): seq<L.Token>
    requires WellFormed(e)
    decreases Size(e), Rank(e, 0)
  {
    match e
    case Factor(v) => [Tok(L.Number, v)]
    case BinaryExpr(_, _, _) => [Tok(L.LeftParent, 0)] + PrintExpr(e) + [Tok(L.RightParent, 0)]
  }

  /** A program printed as each expression followed by `;`, then `Eof`. */
  function PrintStatements(es: seq<Expr>): seq<L.Token>
    requires forall i | 0 <= i < |es| :: WellFormed(es[i])
  {
    if |es| == 0 then [] else PrintExpr(es[0]) + [Tok(L.Semi, 0)] + PrintStatements(es[1..])
  }

  function PrintProgram(es: seq<Expr>): TokenStream
    requires forall i | 0 <= i < |es| :: WellFormed(es[i])
  {
    PrintStatements(es) + [Tok(L.Eof, 0)]
  }

  /** The parser reads only a token's kind, and a number's value: `t` agrees
      with the printed token `p` on those, whatever its position and
      whatever value an operator or parenthesis happens to carry. */
  predicate Matches(t: L.Token, p: L.Token) {
    t.kind == p.kind && (p.kind == L.Number ==> t.value == p.value)
  }

  /** `seg` is spelled out in the stream starting at `pos`, up to what the
      parser ignores. */
  predicate Holds(toks: TokenStream, pos: nat, seg: seq<L.Token>)
    decreases |seg|
  {
    |seg| == 0 || (Matches(Peek(toks, pos), seg[0]) && Holds(toks, pos + 1, seg[1..]))
  }

  lemma {:induction false} HoldsSplit(toks: TokenStream, pos: nat, a: seq<L.Token>, b: seq<L.Token>)
    requires Holds(toks, pos, a + b)
    ensures Holds(toks, pos, a) && Holds(toks, pos + |a|, b)
    decreases |a|
  {
    if |a| == 0 {
      assert a + b == b;
    } else {
      assert (a + b)[0] == a[0];
      assert (a + b)[1..] == a[1..] + b;
      HoldsSplit(toks, pos + 1, a[1..], b);
    }
  }

  /** A stream spells out each of its prefixes from its start. */
  lemma {:induction false} HoldsPrefix(toks: TokenStream, a: seq<L.Token>, b: seq<L.Token>)
    requires toks == a + b
    ensures Holds(toks, 0, a)
  {
    HoldsFrom(toks, 0, a, b);
  }

  lemma {:induction false} HoldsFrom(toks: TokenStream, pos: nat, a: seq<L.Token>, b: seq<L.Token>)
    requires pos + |a + b| == |toks| && toks[pos..] == a + b
    ensures Holds(toks, pos, a)
    decreases |a|
  {
    if |a| > 0 {
      assert toks[pos] == toks[pos..][0] == a[0];
      assert toks[pos + 1..] == toks[pos..][1..] == a[1..] + b;
      HoldsFrom(toks, pos + 1, a[1..], b);
    }
  }

  /** Three consecutive pieces, for the shape `left op right`. */
  lemma HoldsSplit3(toks: TokenStream, pos: nat, a: seq<L.Token>, b: seq<L.Token>, c: seq<L.Token>)
    requires Holds(toks, pos, a + b + c)
    ensures Holds(toks, pos, a) && Holds(toks, pos + |a|, b) && Holds(toks, pos + |a| + |b|, c)
  {
    HoldsSplit(toks, pos, a + b, c);
    HoldsSplit(toks, pos, a, b);
  }

  lemma HoldsHead(toks: TokenStream, pos: nat, seg: seq<L.Token>)
    requires Holds(toks, pos, seg) && |seg| > 0
    ensures Matches(Peek(toks, pos), seg[0])
  {
  }

  /** Tokens that end an expression: none of the four operators. */
  predicate ExprStop(k: L.TokenKind) {
    k != L.Plus && k != L.Minus && k != L.Star && k != L.Slash
  }

  /** Tokens that end a term: neither `*` nor `/`. */
  predicate TermStop(k: L.TokenKind) {
    k != L.Star && k != L.Slash
  }

  // The leftmost operand of a product chain, the text after it, and the
  // chain rebuilt on a different leftmost operand.

  function LeftFactor(e: Expr): (f: Expr)
    ensures Size(f) <= Size(e)
    ensures IsMultiplicative(e) ==> Size(f) < Size(e)
    ensures WellFormed(e) ==> WellFormed(f)
  {
    if IsMultiplicative(e) then LeftFactor(e.leftExpr) else e
  }

  function TermRest(e: Expr): seq<L.Token>
    requires WellFormed(e)
  {
    if IsMultiplicative(e) then TermRest(e.leftExpr) + [OpToken(e.op)] + PrintFactor(e.rightExpr)
    else []
  }

  function GraftTerm(e: Expr, acc: Expr): (g: Expr)
    ensures WellFormed(e) && WellFormed(acc) ==> WellFormed(g)
  {
    if IsMultiplicative(e) then BinaryExpr(GraftTerm(e.leftExpr, acc), e.op, e.rightExpr) else acc
  }

  function LeftTerm(e: Expr): (t: Expr)
    ensures Size(t) <= Size(e)
    ensures IsAdditive(e) ==> Size(t) < Size(e)
    ensures WellFormed(e) ==> WellFormed(t)
  {
    if IsAdditive(e) then LeftTerm(e.leftExpr) else e
  }

  function ExprRest(e: Expr): seq<L.Token>
    requires WellFormed(e)
  {
    if IsAdditive(e) then ExprRest(e.leftExpr) + [OpToken(e.op)] + PrintTerm(e.rightExpr)
    else []
  }

  function GraftExpr(e: Expr, acc: Expr): (g: Expr)
    ensures WellFormed(e) && WellFormed(acc) ==> WellFormed(g)
  {
    if IsAdditive(e) then BinaryExpr(GraftExpr(e.leftExpr, acc), e.op, e.rightExpr) else acc
  }

  lemma {:induction false} TermDecomposes(e: Expr)
    requires WellFormed(e)
    ensures PrintTerm(e) == PrintFactor(LeftFactor(e)) + TermRest(e)
    ensures GraftTerm(e, LeftFactor(e)) == e
  {
    if IsMultiplicative(e) {
      TermDecomposes(e.leftExpr);
    }
  }

  lemma {:induction false} ExprDecomposes(e: Expr)
    requires WellFormed(e)
    ensures PrintExpr(e) == PrintTerm(LeftTerm(e)) + ExprRest(e)
    ensures GraftExpr(e, LeftTerm(e)) == e
  {
    if IsAdditive(e) {
      ExprDecomposes(e.leftExpr);
    }
  }

  /** The text after the leftmost term of a sum chain opens with `+` or `-`. */
  lemma {:induction false} ExprRestOpens(e: Expr)
    requires WellFormed(e) && IsAdditive(e)
    ensures |ExprRest(e)| > 0 && (ExprRest(e)[0].kind == L.Plus || ExprRest(e)[0].kind == L.Minus)
  {
    if IsAdditive(e.leftExpr) {
      ExprRestOpens(e.leftExpr);
    }
  }

  /** Every printed expression opens with a number or a left parenthesis. */
  lemma {:induction false} PrintExprOpens(e: Expr)
    requires WellFormed(e)
    ensures |PrintExpr(e)| > 0
    ensures PrintExpr(e)[0].kind == L.Number || PrintExpr(e)[0].kind == L.LeftParent
  {
    ExprDecomposes(e);
    TermDecomposes(LeftTerm(e));
  }

  lemma GraftTermShape(e: Expr, acc: Expr)
    requires WellFormed(e)
    ensures IsMultiplicative(e) ==> GraftTerm(e, acc) == BinaryExpr(GraftTerm(e.leftExpr, acc), e.op, e.rightExpr)
    ensures !IsMultiplicative(e) ==> GraftTerm(e, acc) == acc && TermRest(e) == []
  {
  }

  lemma GraftExprShape(e: Expr, acc: Expr)
    requires WellFormed(e)
    ensures IsAdditive(e) ==> GraftExpr(e, acc) == BinaryExpr(GraftExpr(e.leftExpr, acc), e.op, e.rightExpr)
    ensures !IsAdditive(e) ==> GraftExpr(e, acc) == acc && ExprRest(e) == []
  {
  }

  // Where the pieces of a printed expression sit in the stream.

  lemma FactorSplits(e: Expr, toks: TokenStream, pos: nat)
    requires WellFormed(e) && e.BinaryExpr? && Holds(toks, pos, PrintFactor(e))
    ensures Peek(toks, pos).kind == L.LeftParent
    ensures Holds(toks, pos + 1, PrintExpr(e))
    ensures Peek(toks, pos + 1 + |PrintExpr(e)|).kind == L.RightParent
    ensures |PrintFactor(e)| == |PrintExpr(e)| + 2
  {
    var lp, inner, rp := [Tok(L.LeftParent, 0)], PrintExpr(e), [Tok(L.RightParent, 0)];
    assert PrintFactor(e) == lp + inner + rp;
    HoldsSplit3(toks, pos, lp, inner, rp);
    HoldsHead(toks, pos, lp);
    HoldsHead(toks, pos + 1 + |inner|, rp);
  }

  lemma TermSplits(e: Expr, toks: TokenStream, pos: nat)
    requires WellFormed(e) && Holds(toks, pos, PrintTerm(e))
    ensures Holds(toks, pos, PrintFactor(LeftFactor(e)))
    ensures Holds(toks, pos + |PrintFactor(LeftFactor(e))|, TermRest(e))
    ensures |PrintTerm(e)| == |PrintFactor(LeftFactor(e))| + |TermRest(e)|
    ensures GraftTerm(e, LeftFactor(e)) == e
  {
    TermDecomposes(e);
    HoldsSplit(toks, pos, PrintFactor(LeftFactor(e)), TermRest(e));
  }

  lemma TermRestSplits(e: Expr, toks: TokenStream, pos: nat)
    requires WellFormed(e) && IsMultiplicative(e) && Holds(toks, pos, TermRest(e))
    ensures Holds(toks, pos, TermRest(e.leftExpr))
    ensures Peek(toks, pos + |TermRest(e.leftExpr)|).kind == OpToken(e.op).kind
    ensures Holds(toks, pos + |TermRest(e.leftExpr)| + 1, PrintFactor(e.rightExpr))
    ensures |TermRest(e)| == |TermRest(e.leftExpr)| + 1 + |PrintFactor(e.rightExpr)|
  {
    var a, opTok, b := TermRest(e.leftExpr), [OpToken(e.op)], PrintFactor(e.rightExpr);
    assert TermRest(e) == a + opTok + b;
    HoldsSplit3(toks, pos, a, opTok, b);
    HoldsHead(toks, pos + |a|, opTok);
  }

  lemma ExprSplits(e: Expr, toks: TokenStream, pos: nat)
    requires WellFormed(e) && Holds(toks, pos, PrintExpr(e))
    requires ExprStop(Peek(toks, pos + |PrintExpr(e)|).kind)
    ensures Holds(toks, pos, PrintTerm(LeftTerm(e)))
    ensures Holds(toks, pos + |PrintTerm(LeftTerm(e))|, ExprRest(e))
    ensures TermStop(Peek(toks, pos + |PrintTerm(LeftTerm(e))|).kind)
    ensures |PrintExpr(e)| == |PrintTerm(LeftTerm(e))| + |ExprRest(e)|
    ensures GraftExpr(e, LeftTerm(e)) == e
  {
    ExprDecomposes(e);
    HoldsSplit(toks, pos, PrintTerm(LeftTerm(e)), ExprRest(e));
    if IsAdditive(e) {
      ExprRestOpens(e);
      HoldsHead(toks, pos + |PrintTerm(LeftTerm(e))|, ExprRest(e));
    }
  }

  lemma ExprRestSplits(e: Expr, toks: TokenStream, pos: nat)
    requires WellFormed(e) && IsAdditive(e) && Holds(toks, pos, ExprRest(e))
    ensures Holds(toks, pos, ExprRest(e.leftExpr))
    ensures Peek(toks, pos + |ExprRest(e.leftExpr)|).kind == OpToken(e.op).kind
    ensures Holds(toks, pos + |ExprRest(e.leftExpr)| + 1, PrintTerm(e.rightExpr))
    ensures |ExprRest(e)| == |ExprRest(e.leftExpr)| + 1 + |PrintTerm(e.rightExpr)|
  {
    var a, opTok, b := ExprRest(e.leftExpr), [OpToken(e.op)], PrintTerm(e.rightExpr);
    assert ExprRest(e) == a + opTok + b;
    HoldsSplit3(toks, pos, a, opTok, b);
    HoldsHead(toks, pos + |a|, opTok);
  }

  // One step of each parsing function, stated on plain facts.

  /** `ParserFactor` on `(`: the inner expression, once `)` follows it. */
  lemma FactorParenStep(toks: TokenStream, pos: nat, e: Expr, close: nat, end: nat)
    requires Peek(toks, pos).kind == L.LeftParent
    requires ParseExpr(toks, pos + 1) == Success(Parsed(e, close))
    requires Peek(toks, close).kind == L.RightParent && end == close + 1
    ensures ParseFactor(toks, pos) == Success(Parsed(e, end))
  {
  }

  /** `ParserTerm` is its first factor followed by its loop. */
  lemma TermStep(toks: TokenStream, pos: nat, f: Expr, next: nat, result: Parsed)
    requires ParseFactor(toks, pos) == Success(Parsed(f, next))
    requires WellFormed(f) && TermTail(toks, f, next) == Success(result)
    ensures ParseTerm(toks, pos) == Success(result)
  {
  }

  /** `ParserExpr` is its first term followed by its loop. */
  lemma ExprStep(toks: TokenStream, pos: nat, t: Expr, next: nat, result: Parsed)
    requires ParseTerm(toks, pos) == Success(Parsed(t, next))
    requires WellFormed(t) && ExprTail(toks, t, next) == Success(result)
    ensures ParseExpr(toks, pos) == Success(result)
  {
  }

  /** One pass of the `ParserTerm` loop over an operator and a factor. */
  lemma TermTailStep(toks: TokenStream, left: Expr, op: Ast.OpCode, right: Expr, pos: nat, next: nat)
    requires WellFormed(left) && WellFormed(right) && (op == Ast.Mul || op == Ast.Div)
    requires Peek(toks, pos).kind == OpToken(op).kind
    requires ParseFactor(toks, pos + 1) == Success(Parsed(right, next))
    ensures TermTail(toks, left, pos) == TermTail(toks, BinaryExpr(left, op, right), next)
  {
  }

  /** One pass of the `ParserExpr` loop over an operator and a term. */
  lemma ExprTailStep(toks: TokenStream, left: Expr, op: Ast.OpCode, right: Expr, pos: nat, next: nat)
    requires WellFormed(left) && WellFormed(right) && (op == Ast.Add || op == Ast.Sub)
    requires Peek(toks, pos).kind == OpToken(op).kind
    requires ParseTerm(toks, pos + 1) == Success(Parsed(right, next))
    ensures ExprTail(toks, left, pos) == ExprTail(toks, BinaryExpr(left, op, right), next)
  {
  }

  lemma TermTailStops(toks: TokenStream, left: Expr, pos: nat)
    requires WellFormed(left) && TermStop(Peek(toks, pos).kind)
    ensures TermTail(toks, left, pos) == Success(Parsed(left, pos))
  {
  }

  lemma ExprTailStops(toks: TokenStream, left: Expr, pos: nat)
    requires WellFormed(left) && ExprStop(Peek(toks, pos).kind)
    ensures ExprTail(toks, left, pos) == Success(Parsed(left, pos))
  {
  }

  // The round trip, tier by tier. These lemmas call one another on the
  // same expression in the order `Rank` and the last component of their
  // `decreases` give, and on smaller expressions freely.

  /** Round trip at the factor tier; a factor needs no lookahead to end. */
  lemma {:induction false} FactorRoundTrip(e: Expr, toks: TokenStream, pos: nat)
    requires WellFormed(e) && Holds(toks, pos, PrintFactor(e))
    ensures ParseFactor(toks, pos) == Success(Parsed(e, pos + |PrintFactor(e)|))
    decreases Size(e), Rank(e, 0), 4
  {
    if e.Factor? {
      HoldsHead(toks, pos, PrintFactor(e));
    } else {
      FactorSplits(e, toks, pos);
      ExprRoundTrip(e, toks, pos + 1);
      FactorParenStep(toks, pos, e, pos + 1 + |PrintExpr(e)|, pos + |PrintFactor(e)|);
    }
  }

  /** Round trip at the term tier, when the next token cannot extend it. */
  lemma {:induction false} TermRoundTrip(e: Expr, toks: TokenStream, pos: nat)
    requires WellFormed(e) && Holds(toks, pos, PrintTerm(e))
    requires TermStop(Peek(toks, pos + |PrintTerm(e)|).kind)
    ensures ParseTerm(toks, pos) == Success(Parsed(e, pos + |PrintTerm(e)|))
    decreases Size(e), Rank(e, 1), 4
  {
    var f := LeftFactor(e);
    var next, end := pos + |PrintFactor(f)|, pos + |PrintTerm(e)|;
    TermSplits(e, toks, pos);
    FactorRoundTrip(f, toks, pos);
    TermTailFinishes(e, toks, next, end);
    TermStep(toks, pos, f, next, Parsed(e, end));
  }

  /** After the leftmost operand of a product chain, the `ParserTerm` loop
      reads the rest of the chain and stops. */
  lemma {:induction false} TermTailFinishes(e: Expr, toks: TokenStream, pos: nat, end: nat)
    requires WellFormed(e) && Holds(toks, pos, TermRest(e))
    requires end == pos + |TermRest(e)| && TermStop(Peek(toks, end).kind)
    ensures TermTail(toks, LeftFactor(e), pos) == Success(Parsed(e, end))
    decreases Size(e), Rank(e, 1), 3
  {
    TermDecomposes(e);
    TermTailRoundTrip(e, LeftFactor(e), toks, pos, end);
    TermTailStops(toks, e, end);
  }

  /** The loop of `ParserTerm` over the text after a product chain's
      leftmost operand rebuilds the chain on whatever operand it starts from. */
  lemma {:induction false} TermTailRoundTrip(e: Expr, acc: Expr, toks: TokenStream, pos: nat, end: nat)
    requires WellFormed(e) && WellFormed(acc) && Holds(toks, pos, TermRest(e))
    requires end == pos + |TermRest(e)|
    ensures TermTail(toks, acc, pos) == TermTail(toks, GraftTerm(e, acc), end)
    decreases Size(e), Rank(e, 1), 2
  {
    GraftTermShape(e, acc);
    if IsMultiplicative(e) {
      var mid := pos + |TermRest(e.leftExpr)|;
      TermRestSplits(e, toks, pos);
      TermTailRoundTrip(e.leftExpr, acc, toks, pos, mid);
      TermTailLast(e, GraftTerm(e.leftExpr, acc), toks, mid, end);
    }
  }

  /** The last pass of the `ParserTerm` loop over a product chain. */
  lemma {:induction false} TermTailLast(e: Expr, left: Expr, toks: TokenStream, pos: nat, end: nat)
    requires WellFormed(e) && IsMultiplicative(e) && WellFormed(left)
    requires Peek(toks, pos).kind == OpToken(e.op).kind
    requires Holds(toks, pos + 1, PrintFactor(e.rightExpr))
    requires end == pos + 1 + |PrintFactor(e.rightExpr)|
    ensures TermTail(toks, left, pos) == TermTail(toks, BinaryExpr(left, e.op, e.rightExpr), end)
    decreases Size(e), Rank(e, 1), 1
  {
    FactorRoundTrip(e.rightExpr, toks, pos + 1);
    TermTailStep(toks, left, e.op, e.rightExpr, pos, end);
  }

  /** Round trip at the expression tier, when the next token cannot extend it. */
  lemma {:induction false} ExprRoundTrip(e: Expr, toks: TokenStream, pos: nat)
    requires WellFormed(e) && Holds(toks, pos, PrintExpr(e))
    requires ExprStop(Peek(toks, pos + |PrintExpr(e)|).kind)
    ensures ParseExpr(toks, pos) == Success(Parsed(e, pos + |PrintExpr(e)|))
    decreases Size(e), Rank(e, 2), 4
  {
    var t := LeftTerm(e);
    var next, end := pos + |PrintTerm(t)|, pos + |PrintExpr(e)|;
    ExprSplits(e, toks, pos);
    TermRoundTrip(t, toks, pos);
    ExprTailFinishes(e, toks, next, end);
    ExprStep(toks, pos, t, next, Parsed(e, end));
  }

  /** After the leftmost operand of a sum chain, the `ParserExpr` loop reads
      the rest of the chain and stops. */
  lemma {:induction false} ExprTailFinishes(e: Expr, toks: TokenStream, pos: nat, end: nat)
    requires WellFormed(e) && Holds(toks, pos, ExprRest(e))
    requires end == pos + |ExprRest(e)| && ExprStop(Peek(toks, end).kind)
    ensures ExprTail(toks, LeftTerm(e), pos) == Success(Parsed(e, end))
    decreases Size(e), Rank(e, 2), 3
  {
    ExprDecomposes(e);
    ExprTailRoundTrip(e, LeftTerm(e), toks, pos, end);
    ExprTailStops(toks, e, end);
  }

  /** The loop of `ParserExpr` over the text after a sum chain's leftmost
      operand rebuilds the chain on whatever operand it starts from. */
  lemma {:induction false} ExprTailRoundTrip(e: Expr, acc: Expr, toks: TokenStream, pos: nat, end: nat)
    requires WellFormed(e) && WellFormed(acc) && Holds(toks, pos, ExprRest(e))
    requires end == pos + |ExprRest(e)| && TermStop(Peek(toks, end).kind)
    ensures ExprTail(toks, acc, pos) == ExprTail(toks, GraftExpr(e, acc), end)
    decreases Size(e), Rank(e, 2), 2
  {
    GraftExprShape(e, acc);
    if IsAdditive(e) {
      var mid := pos + |ExprRest(e.leftExpr)|;
      ExprRestSplits(e, toks, pos);
      ExprTailRoundTrip(e.leftExpr, acc, toks, pos, mid);
      ExprTailLast(e, GraftExpr(e.leftExpr, acc), toks, mid, end);
    }
  }

  /** The last pass of the `ParserExpr` loop over a sum chain. */
  lemma {:induction false} ExprTailLast(e: Expr, left: Expr, toks: TokenStream, pos: nat, end: nat)
    requires WellFormed(e) && IsAdditive(e) && WellFormed(left)
    requires Peek(toks, pos).kind == OpToken(e.op).kind
    requires Holds(toks, pos + 1, PrintTerm(e.rightExpr))
    requires end == pos + 1 + |PrintTerm(e.rightExpr)| && TermStop(Peek(toks, end).kind)
    ensures ExprTail(toks, left, pos) == ExprTail(toks, BinaryExpr(left, e.op, e.rightExpr), end)
    decreases Size(e), Rank(e, 2), 1
  {
    TermRoundTrip(e.rightExpr, toks, pos + 1);
    ExprTailStep(toks, left, e.op, e.rightExpr, pos, end);
  }

  lemma StatementSplits(es: seq<Expr>, toks: TokenStream, pos: nat)
    requires |es| > 0 && forall i | 0 <= i < |es| :: WellFormed(es[i])
    requires Holds(toks, pos, PrintStatements(es))
    ensures Peek(toks, pos).kind == L.Number || Peek(toks, pos).kind == L.LeftParent
    ensures Holds(toks, pos, PrintExpr(es[0]))
    ensures Peek(toks, pos + |PrintExpr(es[0])|).kind == L.Semi
    ensures Holds(toks, pos + |PrintExpr(es[0])| + 1, PrintStatements(es[1..]))
    ensures |PrintStatements(es)| == |PrintExpr(es[0])| + 1 + |PrintStatements(es[1..])|
  {
    var a, semi, b := PrintExpr(es[0]), [Tok(L.Semi, 0)], PrintStatements(es[1..]);
    assert PrintStatements(es) == a + semi + b;
    HoldsSplit3(toks, pos, a, semi, b);
    HoldsHead(toks, pos + |a|, semi);
    PrintExprOpens(es[0]);
    HoldsHead(toks, pos, a);
  }

  /** One pass of the `ParserProgram` loop at any token other than `Eof`
      and `;`, stray `)`, operators and unknown tokens included: the loop
      parses one expression there and appends it, or stops with its error. */
  lemma ProgramStep(toks: TokenStream, pos: nat, acc: seq<Expr>)
    requires forall i | 0 <= i < |acc| :: WellFormed(acc[i])
    requires Peek(toks, pos).kind != L.Eof && Peek(toks, pos).kind != L.Semi
    ensures ParseExpr(toks, pos).Failure? ==>
              ProgramLoop(toks, pos, acc) == Failure(ParseExpr(toks, pos).error)
    ensures ParseExpr(toks, pos).Success? ==>
              var e := ParseExpr(toks, pos).value;
              && (forall i | 0 <= i < |acc + [e.expr]| :: WellFormed((acc + [e.expr])[i]))
              && ProgramLoop(toks, pos, acc) == ProgramLoop(toks, e.pos, acc + [e.expr])
  {
  }

  /** `ParserProgram` skips a `;` and keeps what it has gathered. */
  lemma SemiStep(toks: TokenStream, pos: nat, acc: seq<Expr>)
    requires forall i | 0 <= i < |acc| :: WellFormed(acc[i])
    requires Peek(toks, pos).kind == L.Semi
    ensures ProgramLoop(toks, pos, acc) == ProgramLoop(toks, pos + 1, acc)
  {
  }

  /** The program loop over one printed statement and its `;`. */
  lemma StatementRoundTrip(es: seq<Expr>, acc: seq<Expr>, toks: TokenStream, pos: nat)
    requires |es| > 0 && forall i | 0 <= i < |es| :: WellFormed(es[i])
    requires forall i | 0 <= i < |acc| :: WellFormed(acc[i])
    requires Holds(toks, pos, PrintStatements(es))
    ensures forall i | 0 <= i < |acc + [es[0]]| :: WellFormed((acc + [es[0]])[i])
    ensures Holds(toks, pos + |PrintExpr(es[0])| + 1, PrintStatements(es[1..]))
    ensures |PrintStatements(es)| == |PrintExpr(es[0])| + 1 + |PrintStatements(es[1..])|
    ensures ProgramLoop(toks, pos, acc) == ProgramLoop(toks, pos + |PrintExpr(es[0])| + 1, acc + [es[0]])
  {
    var e := es[0];
    var semi := pos + |PrintExpr(e)|;
    StatementSplits(es, toks, pos);
    ExprRoundTrip(e, toks, pos);
    ProgramStep(toks, pos, acc);
    SemiStep(toks, semi, acc + [e]);
  }

  lemma AppendHead(acc: seq<Expr>, es: seq<Expr>)
    requires |es| > 0
    ensures acc + [es[0]] + es[1..] == acc + es
  {
  }

  /** The program loop reads back each printed statement in order. */
  lemma {:induction false} StatementsRoundTrip(es: seq<Expr>, acc: seq<Expr>, toks: TokenStream, pos: nat)
    requires forall i | 0 <= i < |es| :: WellFormed(es[i])
    requires forall i | 0 <= i < |acc| :: WellFormed(acc[i])
    requires Holds(toks, pos, PrintStatements(es))
    requires Peek(toks, pos + |PrintStatements(es)|).kind == L.Eof
    ensures ProgramLoop(toks, pos, acc) == Success(Program(acc + es))
    decreases |es|
  {
    if |es| == 0 {
      assert acc + es == acc;
    } else {
      StatementRoundTrip(es, acc, toks, pos);
      StatementsRoundTrip(es[1..], acc + [es[0]], toks, pos + |PrintExpr(es[0])| + 1);
      AppendHead(acc, es);
    }
  }

  /** Parsing a printed program gives back its expressions, in order. */
  lemma ProgramRoundTrip(es: seq<Expr>)
    requires forall i | 0 <= i < |es| :: WellFormed(es[i])
    ensures ParseProgram(PrintProgram(es)) == Success(Program(es))
  {
    var toks := PrintProgram(es);
    HoldsPrefix(toks, PrintStatements(es), [Tok(L.Eof, 0)]);
    StatementsRoundTrip(es, [], toks, 0);
    assert [] + es == es;
  }

  /** Any number of stray `;` are skipped before, between and after
      statements. */
  lemma {:induction false} SemicolonsSkipped(toks: TokenStream, pos: nat, acc: seq<Expr>, k: nat)
    requires forall i | 0 <= i < |acc| :: WellFormed(acc[i])
    requires forall i | pos <= i < pos + k :: Peek(toks, i).kind == L.Semi
    ensures ProgramLoop(toks, pos, acc) == ProgramLoop(toks, pos + k, acc)
    decreases k
  {
    if k > 0 {
      SemiStep(toks, pos, acc);
      SemicolonsSkipped(toks, pos + 1, acc, k - 1);
    }
  }

  /** An expression in parentheses that is not followed by `)` stops the
      parser at the token where `)` was expected. */
  lemma UnclosedParenthesisFails(e: Expr, toks: TokenStream, pos: nat)
    requires WellFormed(e) && Peek(toks, pos).kind == L.LeftParent
    requires Holds(toks, pos + 1, PrintExpr(e))
    requires ExprStop(Peek(toks, pos + 1 + |PrintExpr(e)|).kind)
    requires Peek(toks, pos + 1 + |PrintExpr(e)|).kind != L.RightParent
    ensures ParseFactor(toks, pos) == Failure(MissingRightParent(pos + 1 + |PrintExpr(e)|))
  {
    ExprRoundTrip(e, toks, pos + 1);
  }

  /** The parenthesised branch of `ParserFactor`, over any stream: an error
      inside the parentheses is the factor's error; a missing `)` fails
      where it was expected; otherwise the factor is the inner expression
      and the parser moves past the `)`. */
  lemma FactorFails(toks: TokenStream, pos: nat)
    requires Peek(toks, pos).kind == L.LeftParent
    ensures ParseExpr(toks, pos + 1).Failure? ==>
              ParseFactor(toks, pos) == Failure(ParseExpr(toks, pos + 1).error)
    ensures ParseExpr(toks, pos + 1).Success? ==>
              var inner := ParseExpr(toks, pos + 1).value;
              ParseFactor(toks, pos) ==
                if Peek(toks, inner.pos).kind == L.RightParent then Success(Parsed(inner.expr, inner.pos + 1))
                else Failure(MissingRightParent(inner.pos))
  {
  }

  /** The `*`/`/` loop stops with the error of a right operand that fails. */
  lemma TermTailFails(toks: TokenStream, left: Expr, pos: nat)
    requires WellFormed(left)
    requires Peek(toks, pos).kind == L.Star || Peek(toks, pos).kind == L.Slash
    requires ParseFactor(toks, pos + 1).Failure?
    ensures TermTail(toks, left, pos) == Failure(ParseFactor(toks, pos + 1).error)
  {
  }

  /** The `+`/`-` loop stops with the error of a right operand that fails. */
  lemma ExprTailFails(toks: TokenStream, left: Expr, pos: nat)
    requires WellFormed(left)
    requires Peek(toks, pos).kind == L.Plus || Peek(toks, pos).kind == L.Minus
    requires ParseTerm(toks, pos + 1).Failure?
    ensures ExprTail(toks, left, pos) == Failure(ParseTerm(toks, pos + 1).error)
  {
  }

  /** A failing first operand fails the tier above it with the same error. */
  lemma FirstOperandFails(toks: TokenStream, pos: nat)
    ensures ParseFactor(toks, pos).Failure? ==> ParseTerm(toks, pos) == Failure(ParseFactor(toks, pos).error)
    ensures ParseTerm(toks, pos).Failure? ==> ParseExpr(toks, pos) == Failure(ParseTerm(toks, pos).error)
  {
  }

  /** `) ;`: a stray `)` is read as a number leaf carrying its value, so the
      program holds one expression. */
  lemma StrayTokenIsAStatement(toks: TokenStream)
    requires toks == [Tok(L.RightParent, 5), Tok(L.Semi, 0), Tok(L.Eof, 0)]
    ensures ParseProgram(toks) == Success(Program([Factor(5)]))
  {
    AnyOtherTokenIsANumber(toks, 0);
    assert ParseTerm(toks, 0) == Success(Parsed(Factor(5), 1));
    assert ParseExpr(toks, 0) == Success(Parsed(Factor(5), 1));
    ProgramStep(toks, 0, []);
    SemiStep(toks, 1, [Factor(5)]);
  }

  /** An error inside a statement's first factor ends the whole program
      with that error. */
  lemma FailureStopsTheProgram(toks: TokenStream, pos: nat, acc: seq<Expr>)
    requires forall i | 0 <= i < |acc| :: WellFormed(acc[i])
    requires Peek(toks, pos).kind != L.Eof && Peek(toks, pos).kind != L.Semi
    requires ParseFactor(toks, pos).Failure?
    ensures ProgramLoop(toks, pos, acc) == Failure(ParseFactor(toks, pos).error)
  {
    assert ParseTerm(toks, pos) == Failure(ParseFactor(toks, pos).error);
    assert ParseExpr(toks, pos) == Failure(ParseFactor(toks, pos).error);
  }

  /** A token that cannot start a factor is still read as a number: the leaf
      carries that token's value and the parser moves past it. */
  lemma AnyOtherTokenIsANumber(toks: TokenStream, pos: nat)
    requires Peek(toks, pos).kind != L.LeftParent
    ensures ParseFactor(toks, pos) == Success(Parsed(Factor(Peek(toks, pos).value), pos + 1))
    ensures Peek(toks, pos).kind != L.Number ==> ParseFactor(toks, pos).Success?
  {
  }

  function Num(v: int): L.Token { Tok(L.Number, v) }

  /** `1 + 2 * 3` groups as `1 + (2 * 3)`. */
  lemma MultiplicationBindsTighter(toks: TokenStream)
    requires toks == [Num(1), Tok(L.Plus, 0), Num(2), Tok(L.Star, 0), Num(3), Tok(L.Eof, 0)]
    ensures ParseExpr(toks, 0)
         == Success(Parsed(BinaryExpr(Factor(1), Ast.Add, BinaryExpr(Factor(2), Ast.Mul, Factor(3))), 5))
  {
    var product := BinaryExpr(Factor(2), Ast.Mul, Factor(3));
    var e := BinaryExpr(Factor(1), Ast.Add, product);
    var text := [Num(1), Tok(L.Plus, 0), Num(2), Tok(L.Star, 0), Num(3)];
    assert PrintTerm(product) == [Num(2), Tok(L.Star, 0), Num(3)];
    assert PrintExpr(e) == text;
    HoldsPrefix(toks, text, [Tok(L.Eof, 0)]);
    ExprRoundTrip(e, toks, 0);
  }

  /** `8 - 4 - 2` groups as `(8 - 4) - 2`. */
  lemma SubtractionGroupsLeft(toks: TokenStream)
    requires toks == [Num(8), Tok(L.Minus, 0), Num(4), Tok(L.Minus, 0), Num(2), Tok(L.Eof, 0)]
    ensures ParseExpr(toks, 0)
         == Success(Parsed(BinaryExpr(BinaryExpr(Factor(8), Ast.Sub, Factor(4)), Ast.Sub, Factor(2)), 5))
  {
    var first := BinaryExpr(Factor(8), Ast.Sub, Factor(4));
    var e := BinaryExpr(first, Ast.Sub, Factor(2));
    var text := [Num(8), Tok(L.Minus, 0), Num(4), Tok(L.Minus, 0), Num(2)];
    assert PrintExpr(first) == [Num(8), Tok(L.Minus, 0), Num(4)];
    assert PrintExpr(e) == text;
    HoldsPrefix(toks, text, [Tok(L.Eof, 0)]);
    ExprRoundTrip(e, toks, 0);
  }

  /** `8 / (4 / 2)` keeps the grouping its parentheses give. */
  lemma ParenthesesOverrideGrouping(toks: TokenStream)
    requires toks == [Num(8), Tok(L.Slash, 0), Tok(L.LeftParent, 0), Num(4), Tok(L.Slash, 0), Num(2),
                      Tok(L.RightParent, 0), Tok(L.Eof, 0)]
    ensures ParseExpr(toks, 0)
         == Success(Parsed(BinaryExpr(Factor(8), Ast.Div, BinaryExpr(Factor(4), Ast.Div, Factor(2))), 7))
  {
    var inner := BinaryExpr(Factor(4), Ast.Div, Factor(2));
    var e := BinaryExpr(Factor(8), Ast.Div, inner);
    var text := [Num(8), Tok(L.Slash, 0), Tok(L.LeftParent, 0), Num(4), Tok(L.Slash, 0), Num(2),
                 Tok(L.RightParent, 0)];
    assert PrintFactor(inner) == [Tok(L.LeftParent, 0), Num(4), Tok(L.Slash, 0), Num(2), Tok(L.RightParent, 0)];
    assert PrintExpr(e) == text;
    HoldsPrefix(toks, text, [Tok(L.Eof, 0)]);
    ExprRoundTrip(e, toks, 0);
  }

  /** A hand-built `1+2` whose tokens sit at columns 1 to 4 and whose `+`
      and `Eof` carry arbitrary leftover values: the parser reads the same
      sum as from printed tokens. */
  lemma LexedPositionsDoNotMatter(toks: TokenStream)
    requires toks == [L.Token(1, 1, L.Number, 1), L.Token(1, 2, L.Plus, 1),
                      L.Token(1, 3, L.Number, 2), L.Token(1, 4, L.Eof, 2)]
    ensures ParseExpr(toks, 0) == Success(Parsed(BinaryExpr(Factor(1), Ast.Add, Factor(2)), 3))
  {
    var e := BinaryExpr(Factor(1), Ast.Add, Factor(2));
    assert PrintExpr(e) == [Num(1), Tok(L.Plus, 0), Num(2)];
    assert Holds(toks, 0, PrintExpr(e));
    ExprRoundTrip(e, toks, 0);
  }

  /** `(1` with nothing after it: `)` was expected at position 2. */
  lemma UnclosedParenthesisExample(toks: TokenStream)
    requires toks == [Tok(L.LeftParent, 0), Num(1), Tok(L.Eof, 0)]
    ensures ParseProgram(toks) == Failure(MissingRightParent(2))
  {
    HoldsFrom(toks, 1, [Num(1)], [Tok(L.Eof, 0)]);
    UnclosedParenthesisFails(Factor(1), toks, 0);
    FailureStopsTheProgram(toks, 0, []);
  }
}

=== FILE: scope.dfy ===
/** The symbol table (src/Scope.cpp, src/include/Scope.h): a stack of
    frames, each mapping a name to its symbol, with the innermost frame
    last. A `shared_ptr<Symbol>` that may be null is an `Option<Symbol>`. */
module SymbolTable {
  import opened Wrappers
  import opened CTypes

  datatype SymbolKind = LocalVariable

  datatype Symbol = Symbol(name: string, symbolKind: SymbolKind, cType: Option<CType>)

  /** One `Env`: its `variableSymbolTable`. */
  type Env = map<string, Symbol>

  /** `envs[|envs| - 1]` is the innermost frame (`envs.back()`). */
  datatype Scope = Scope(envs: seq<Env>)

  /** Frame `i` is the innermost one that binds `name`. */
  ghost predicate Innermost(envs: seq<Env>, name: string, i: int) {
    && 0 <= i < |envs|
    && name in envs[i]
    && forall j | i < j < |envs| :: name !in envs[j]
  }

  /** No frame binds `name`. */
  ghost predicate Unbound(envs: seq<Env>, name: string) {
    forall i | 0 <= i < |envs| :: name !in envs[i]
  }

  /** `Scope()`: a stack holding one empty frame. */
  function New(): (s: Scope)
    ensures |s.envs| == 1
    ensures forall name :: FindVarSymbol(s, name) == None
  {
    Scope([map[]])
  }

  /** `EnterScope`: pushes an empty frame. Nothing bound so far becomes
      invisible, and the new frame binds nothing. */
  function EnterScope(s: Scope): (r: Scope)
    ensures |r.envs| == |s.envs| + 1
    ensures forall name :: FindVarSymbol(r, name) == FindVarSymbol(s, name)
    ensures forall name :: FindVarSymbolInCurrEnv(r, name) == None
  {
    var r := Scope(s.envs + [map[]]);
    assert r.envs[..|s.envs|] == s.envs;
    r
  }

  /** `ExitScope`: drops the innermost frame. `pop_back` on an empty
      vector is undefined, so the stack must hold a frame. */
  function ExitScope(s: Scope): (r: Scope)
    requires |s.envs| > 0
    ensures |r.envs| == |s.envs| - 1
    ensures forall i | 0 <= i < |r.envs| :: r.envs[i] == s.envs[i]
  {
    Scope(s.envs[..|s.envs| - 1])
  }

  /** `AddSymbol`: inserts into the innermost frame. `StringMap::insert`
      leaves an existing entry in place, so a name the innermost frame
      already binds keeps its old symbol. Outer frames never change. */
  function AddSymbol(s: Scope, name: string, symbolKind: SymbolKind, cType: Option<CType>): (r: Scope)
    requires |s.envs| > 0
    ensures |r.envs| == |s.envs|
    ensures forall i | 0 <= i < |s.envs| - 1 :: r.envs[i] == s.envs[i]
    ensures r.envs[|r.envs| - 1].Keys == s.envs[|s.envs| - 1].Keys + {name}
    ensures FindVarSymbolInCurrEnv(r, name) ==
      if FindVarSymbolInCurrEnv(s, name).Some? then FindVarSymbolInCurrEnv(s, name)
      else Some(Symbol(name, symbolKind, cType))
    ensures forall other | other != name ::
      FindVarSymbolInCurrEnv(r, other) == FindVarSymbolInCurrEnv(s, other)
  {
    var top := s.envs[|s.envs| - 1];
    if name in top then s
    else Scope(s.envs[|s.envs| - 1 := top[name := Symbol(name, symbolKind, cType)]])
  }

  /** `FindVarSymbol`: searches the frames from the innermost outwards and
      answers the first hit, or null when no frame binds the name. */
  function FindVarSymbol(s: Scope, name: string): (r: Option<Symbol>)
    ensures r.None? <==> Unbound(s.envs, name)
    ensures r.Some? ==> exists i :: Innermost(s.envs, name, i) && r.value == s.envs[i][name]
  {
    FindIn(s.envs, name)
  }

  /** The reverse-iterator loop of `FindVarSymbol` over the bottom frames. */
  function FindIn(envs: seq<Env>, name: string): (r: Option<Symbol>)
    ensures r.None? <==> Unbound(envs, name)
    ensures r.Some? ==> exists i :: Innermost(envs, name, i) && r.value == envs[i][name]
    decreases |envs|
  {
    if |envs| == 0 then None
    else if name in envs[|envs| - 1] then
      assert Innermost(envs, name, |envs| - 1);
      Some(envs[|envs| - 1][name])
    else
      var rest := envs[..|envs| - 1];
      var r := FindIn(rest, name);
      assert r.Some? ==> exists i :: Innermost(envs, name, i) && r.value == envs[i][name] by {
        if r.Some? {
          var i :| Innermost(rest, name, i) && r.value == rest[i][name];
          InnermostBelowTop(envs, name, i);
        }
      }
      r
  }

  /** The innermost binding among the lower frames stays innermost when
      the top frame does not bind the name. */
  lemma InnermostBelowTop(envs: seq<Env>, name: string, i: int)
    requires |envs| > 0 && name !in envs[|envs| - 1]
    requires Innermost(envs[..|envs| - 1], name, i)
    ensures Innermost(envs, name, i) && envs[..|envs| - 1][i] == envs[i]
  {
  }

  /** `FindVarSymbolInCurrEnv`: consults the innermost frame only;
      `envs.back()` needs a frame to exist. */
  function FindVarSymbolInCurrEnv(s: Scope, name: string): (r: Option<Symbol>)
    requires |s.envs| > 0
    ensures r.Some? <==> name in s.envs[|s.envs| - 1]
  {
    var top := s.envs[|s.envs| - 1];
    if name in top then Some(top[name]) else None
  }

  /** A hit in the innermost frame is also what the full search finds. */
  lemma CurrEnvHitShadows(s: Scope, name: string)
    requires |s.envs| > 0 && FindVarSymbolInCurrEnv(s, name).Some?
    ensures FindVarSymbol(s, name) == FindVarSymbolInCurrEnv(s, name)
  {
  }

  /** Entering a frame and leaving it again gives back the same stack. */
  lemma EnterThenExit(s: Scope)
    ensures ExitScope(EnterScope(s)) == s
  {
    assert (s.envs + [map[]])[..|s.envs|] == s.envs;
  }

  /** A name the innermost frame lacks is afterwards found by both lookups
      as the symbol just added, whatever the outer frames bind. */
  lemma AddThenFind(s: Scope, name: string, symbolKind: SymbolKind, cType: Option<CType>)
    requires |s.envs| > 0 && FindVarSymbolInCurrEnv(s, name).None?
    ensures FindVarSymbolInCurrEnv(AddSymbol(s, name, symbolKind, cType), name) == Some(Symbol(name, symbolKind, cType))
    ensures FindVarSymbol(AddSymbol(s, name, symbolKind, cType), name) == Some(Symbol(name, symbolKind, cType))
  {
    CurrEnvHitShadows(AddSymbol(s, name, symbolKind, cType), name);
  }

  /** Adding a name the innermost frame already binds changes nothing. */
  lemma AddKeepsExisting(s: Scope, name: string, symbolKind: SymbolKind, cType: Option<CType>)
    requires |s.envs| > 0 && FindVarSymbolInCurrEnv(s, name).Some?
    ensures AddSymbol(s, name, symbolKind, cType) == s
  {
  }

  /** Adding one name leaves every other name's lookup as it was. */
  lemma {:induction false} AddLeavesOtherNames(s: Scope, name: string, symbolKind: SymbolKind,
                                               cType: Option<CType>, other: string)
    requires |s.envs| > 0 && other != name
    ensures FindVarSymbol(AddSymbol(s, name, symbolKind, cType), other) == FindVarSymbol(s, other)
  {
    var r := AddSymbol(s, name, symbolKind, cType);
    var last := |s.envs| - 1;
    assert r.envs[..last] == s.envs[..last];
  }

  /** A declaration in an inner frame hides an outer one until the frame is
      left, after which the outer binding is visible again. */
  lemma ShadowingEndsWithFrame(s: Scope, name: string, symbolKind: SymbolKind, cType: Option<CType>)
    ensures var inner := AddSymbol(EnterScope(s), name, symbolKind, cType);
            && FindVarSymbol(inner, name) == Some(Symbol(name, symbolKind, cType))
            && FindVarSymbol(ExitScope(inner), name) == FindVarSymbol(s, name)
  {
    var entered := EnterScope(s);
    AddThenFind(entered, name, symbolKind, cType);
    var inner := AddSymbol(entered, name, symbolKind, cType);
    assert ExitScope(inner).envs == s.envs;
  }
}

=== FILE: sema.dfy ===
/** Semantic actions (src/Sema.cpp, src/include/Sema.h): the node
    constructors the parser of the newer front end calls, which consult and
    extend the symbol table. `Diagnostics::Report` ends the process on an
    error (src/include/Diagnostics.h:30-32), so a reported error is a
    `Failure` carrying the diagnostic and nothing after it happens. */
module Semantic {
  import opened Wrappers
  import opened CTypes
  import Tokens
  import opened Ast
  import opened SymbolTable

  /** The three diagnostics the actions raise, with the name they report. */
  datatype Diag =
    | ErrorRedefined(name: string)
    | ErrorUndefined(name: string)
    | ErrorLvalue

  /** The analyser's only state is its scope. */
  datatype Sema = Sema(scope: Scope)

  /** A declaration's node together with the analyser it leaves behind. */
  datatype Declared = Declared(node: Node, sema: Sema)

  /** A default-constructed `Sema`: its scope holds one empty frame. */
  function New(): (s: Sema)
    ensures |s.scope.envs| == 1
    ensures forall name :: FindVarSymbol(s.scope, name) == None
  {
    Sema(SymbolTable.New())
  }

  /** `SemaVariableDeclNode`: a name the innermost frame already binds is
      reported as redefined; otherwise the name is entered there as a local
      variable of the given type and a declaration node carrying the token
      and the type is built. Names bound only in outer frames are shadowed
      without complaint. */
  function SemaVariableDeclNode(sema: Sema, cType: Option<CType>, tok: Tokens.Token): (r: Result<Declared, Diag>)
    requires |sema.scope.envs| > 0
    ensures r.Failure? <==> tok.spelling in sema.scope.envs[|sema.scope.envs| - 1]
    ensures r.Failure? ==> r.error == ErrorRedefined(tok.spelling)
    ensures r.Success? ==> r.value.sema.scope == AddSymbol(sema.scope, tok.spelling, LocalVariable, cType)
    ensures r.Success? ==> |r.value.sema.scope.envs| == |sema.scope.envs|
    ensures r.Success? ==> r.value.node.VariableDecl? && ClassOf(ND_VariableDecl, r.value.node)
    ensures r.Success? ==> r.value.node.token == tok && r.value.node.cType == cType
    ensures r.Success? ==> FindVarSymbolInCurrEnv(r.value.sema.scope, tok.spelling) == Some(Symbol(tok.spelling, LocalVariable, cType))
    ensures r.Success? ==> FindVarSymbol(r.value.sema.scope, tok.spelling) == Some(Symbol(tok.spelling, LocalVariable, cType))
    ensures r.Success? ==> forall other | other != tok.spelling ::
      FindVarSymbol(r.value.sema.scope, other) == FindVarSymbol(sema.scope, other)
  {
    var content := tok.spelling;
    if FindVarSymbolInCurrEnv(sema.scope, content).Some? then
      Failure(ErrorRedefined(content))
    else
      var scope := AddSymbol(sema.scope, content, LocalVariable, cType);
      AddThenFind(sema.scope, content, LocalVariable, cType);
      assert forall other | other != content :: FindVarSymbol(scope, other) == FindVarSymbol(sema.scope, other) by {
        forall other | other != content
          ensures FindVarSymbol(scope, other) == FindVarSymbol(sema.scope, other)
        {
          AddLeavesOtherNames(sema.scope, content, LocalVariable, cType, other);
        }
      }
      Success(Declared(VariableDecl(cType, tok), Sema(scope)))
  }

  /** `SemaVariableAccessExprNode`: a name no frame binds is reported as
      undefined; otherwise the access node carries the token and the type
      of the innermost symbol of that name. */
  function SemaVariableAccessExprNode(sema: Sema, tok: Tokens.Token): (r: Result<Node, Diag>)
    ensures r.Failure? <==> Unbound(sema.scope.envs, tok.spelling)
    ensures r.Failure? ==> r.error == ErrorUndefined(tok.spelling)
    ensures r.Success? ==> r.value.VariableAssessExpr? && ClassOf(ND_VariableAssessExpr, r.value)
    ensures r.Success? ==> r.value.token == tok
    ensures r.Success? ==> exists i :: Innermost(sema.scope.envs, tok.spelling, i)
                                      && r.value.cType == sema.scope.envs[i][tok.spelling].cType
  {
    var content := tok.spelling;
    match FindVarSymbol(sema.scope, content)
    case None => Failure(ErrorUndefined(content))
    case Some(symbol) => Success(VariableAssessExpr(symbol.cType, tok))
  }

  /** `SemaAssignExprNode`: both operands are non-null (the source asserts
      it), and an assignment whose left side is not a variable access is
      reported. The node keeps both operands and takes the left operand's
      token; the reporting token only positions the diagnostic. */
  function SemaAssignExprNode(left: Node, right: Node): (r: Result<Node, Diag>)
    ensures r.Failure? <==> !left.VariableAssessExpr?
    ensures r.Failure? ==> r.error == ErrorLvalue
    ensures r.Success? ==> r.value.AssignExpr? && ClassOf(ND_AssignExpr, r.value)
    ensures r.Success? ==> r.value.leftExpr == Some(left) && r.value.rightExpr == Some(right)
    ensures r.Success? ==> r.value.token == left.token
  {
    if !ClassOf(ND_VariableAssessExpr, left) then
      Failure(ErrorLvalue)
    else
      Success(AssignExpr(None, left.token, Some(left), Some(right)))
  }

  /** `SemaBinaryExprNode`: stores its operands, which may be null. */
  function SemaBinaryExprNode(left: Option<Node>, op: OpCode, right: Option<Node>): (n: Node)
    ensures n.BinaryExpr? && ClassOf(ND_BinaryExpr, n)
    ensures n.leftExpr == left && n.op == op && n.rightExpr == right
    ensures n.token == Tokens.Default() && n.cType == None
  {
    NewBinaryExpr(left, op, right)
  }

  /** `SemaNumberExprNode`: a number node with the token and the type. */
  function SemaNumberExprNode(cType: Option<CType>, tok: Tokens.Token): (n: Node)
    ensures n.NumberExpr? && ClassOf(ND_NumberExpr, n)
    ensures n.token == tok && n.cType == cType
  {
    NumberExpr(cType, tok)
  }

  /** `SemaIfStmtNode`: stores condition, then-branch and else-branch; the
      else-branch may be null. */
  function SemaIfStmtNode(condExpr: Option<Node>, thenStmt: Option<Node>, elseStmt: Option<Node>): (n: Node)
    ensures n.IfStmt? && ClassOf(ND_IfStmt, n)
    ensures n.condExpr == condExpr && n.thenStmt == thenStmt && n.elseStmt == elseStmt
    ensures n.token == Tokens.Default() && n.cType == None
  {
    IfStmt(None, Tokens.Default(), condExpr, thenStmt, elseStmt)
  }

  /** `SemaForStmtNode`: stores the four clauses, any of which may be null. */
  function SemaForStmtNode(initNode: Option<Node>, condNode: Option<Node>,
                           thenNode: Option<Node>, bodyNode: Option<Node>): (n: Node)
    ensures n.ForStmt? && ClassOf(ND_ForStmt, n)
    ensures n.initNode == initNode && n.condNode == condNode
    ensures n.thenNode == thenNode && n.bodyNode == bodyNode
    ensures n.token == Tokens.Default() && n.cType == None
  {
    ForStmt(None, Tokens.Default(), initNode, condNode, thenNode, bodyNode)
  }

  /** `Sema::EnterScope`: opens a frame; every name stays visible as it was,
      and the new frame binds nothing. */
  function EnterScope(sema: Sema): (r: Sema)
    ensures |r.scope.envs| == |sema.scope.envs| + 1
    ensures forall name :: FindVarSymbol(r.scope, name) == FindVarSymbol(sema.scope, name)
    ensures forall name :: FindVarSymbolInCurrEnv(r.scope, name) == None
  {
    Sema(SymbolTable.EnterScope(sema.scope))
  }

  /** `Sema::ExitScope`: closes the innermost frame; the frames below it
      are kept as they are. */
  function ExitScope(sema: Sema): (r: Sema)
    requires |sema.scope.envs| > 0
    ensures |r.scope.envs| == |sema.scope.envs| - 1
    ensures forall i | 0 <= i < |r.scope.envs| :: r.scope.envs[i] == sema.scope.envs[i]
  {
    Sema(SymbolTable.ExitScope(sema.scope))
  }

  /** A declared name can be used at once, and its use has the declared type. */
  lemma DeclThenAccess(sema: Sema, cType: Option<CType>, tok: Tokens.Token, use: Tokens.Token)
    requires |sema.scope.envs| > 0
    requires SemaVariableDeclNode(sema, cType, tok).Success?
    requires use.spelling == tok.spelling
    ensures var after := SemaVariableDeclNode(sema, cType, tok).value.sema;
            SemaVariableAccessExprNode(after, use) == Success(VariableAssessExpr(cType, use))
  {
  }

  /** Declaring the same name twice in one frame is reported. */
  lemma RedeclarationFails(sema: Sema, cType: Option<CType>, tok: Tokens.Token,
                           cType2: Option<CType>, again: Tokens.Token)
    requires |sema.scope.envs| > 0
    requires SemaVariableDeclNode(sema, cType, tok).Success?
    requires again.spelling == tok.spelling
    ensures var after := SemaVariableDeclNode(sema, cType, tok).value.sema;
            SemaVariableDeclNode(after, cType2, again) == Failure(ErrorRedefined(tok.spelling))
  {
  }

  /** In a fresh frame a name may be declared again, whatever the outer
      frames bind; uses inside see the new declaration, and once the frame
      is closed, uses see the outer one again. */
  lemma ShadowingInInnerFrame(sema: Sema, cType: Option<CType>, tok: Tokens.Token, use: Tokens.Token)
    requires use.spelling == tok.spelling
    ensures SemaVariableDeclNode(EnterScope(sema), cType, tok).Success?
    ensures var inner := SemaVariableDeclNode(EnterScope(sema), cType, tok).value.sema;
            && SemaVariableAccessExprNode(inner, use) == Success(VariableAssessExpr(cType, use))
            && SemaVariableAccessExprNode(ExitScope(inner), use) == SemaVariableAccessExprNode(sema, use)
  {
    var entered := EnterScope(sema);
    var inner := SemaVariableDeclNode(entered, cType, tok).value.sema;
    SymbolTable.ShadowingEndsWithFrame(sema.scope, tok.spelling, LocalVariable, cType);
    assert inner.scope == AddSymbol(SymbolTable.EnterScope(sema.scope), tok.spelling, LocalVariable, cType);
  }

  /** Nothing is declared in a fresh analyser, so every use is reported. */
  lemma UseBeforeDeclarationFails(tok: Tokens.Token)
    ensures SemaVariableAccessExprNode(New(), tok) == Failure(ErrorUndefined(tok.spelling))
  {
  }

  /** A successful variable access is always a valid assignment target, and
      the assignment takes the access's token. */
  lemma AssignToAccessedVariable(sema: Sema, tok: Tokens.Token, right: Node)
    requires SemaVariableAccessExprNode(sema, tok).Success?
    ensures var target := SemaVariableAccessExprNode(sema, tok).value;
            SemaAssignExprNode(target, right).Success? && SemaAssignExprNode(target, right).value.token == tok
  {
  }

  /** A number is never an assignment target. */
  lemma AssignToNumberFails(cType: Option<CType>, tok: Tokens.Token, right: Node)
    ensures SemaAssignExprNode(SemaNumberExprNode(cType, tok), right) == Failure(ErrorLvalue)
  {
  }

  /** `int x; x = 1;` in a fresh analyser: the declaration succeeds, the use
      of `x` has type `int`, and the assignment of a number to it is
      accepted. */
  lemma DeclareIntThenAssign(x: Tokens.Token, use: Tokens.Token, one: Tokens.Token)
    requires use.spelling == x.spelling
    ensures SemaVariableDeclNode(New(), Some(IntTy()), x).Success?
    ensures var after := SemaVariableDeclNode(New(), Some(IntTy()), x).value.sema;
            var access := SemaVariableAccessExprNode(after, use);
            && access == Success(VariableAssessExpr(Some(IntTy()), use))
            && SemaAssignExprNode(access.value, SemaNumberExprNode(Some(IntTy()), one)).Success?
  {
    DeclThenAccess(New(), Some(IntTy()), x, use);
  }
}

=== FILE: tokens.dfy ===
/** The token record of the newer front end (src/include/Lexer.h): a kind,
    a source position, a literal value, an optional built-in type and the
    spelling of the token. The raw `ptr`/`length` span is modelled as the
    spelled text itself. */
module Tokens {
  import opened Wrappers
  import opened CTypes

  /** The 27 token kinds, in declaration order. */
  datatype TokenType =
    | Unknown
    | Number
    | Equal
    | EqualEqual
    | NotEqual
    | Less
    | Greater
    | LessEqual
    | GreaterEqual
    | Minus
    | Plus
    | Star
    | Slash
    | LeftParent
    | RightParent
    | LeftBrace
    | RightBrace
    | Comma
    | Semi
    | Identifier
    | KW_int
    | KW_if
    | KW_else
    | KW_for
    | KW_break
    | KW_continue
    | Eof

  /** `cType == None` is a null type pointer; `spelling` is the text between
      `ptr` and `ptr + length`. */
  datatype Token = Token(
    kind: TokenType,
    row: int,
    col: int,
    value: int,
    cType: Option<CType>,
    spelling: string)

  /** The default constructor. It leaves `cType`, `ptr` and `length`
      uninitialised; the model fills them with a null type and no text. */
  function Default(): (t: Token)
    ensures t.row == -1 && t.col == -1
    ensures t.kind == Unknown && t.value == 0
  {
    Token(Unknown, -1, -1, 0, None, "")
  }

  /** `Token(ty, row, col)`: only those three fields are initialised; the
      others get the same placeholders as `Default`. */
  function Make(kind: TokenType, row: int, col: int): (t: Token)
    ensures t.kind == kind && t.row == row && t.col == col
  {
    Token(kind, row, col, 0, None, "")
  }

  /** `setMember`: overwrites kind, value, type and span, keeps the
      position. `value` defaults to 0 and `cType` to null as in the source. */
  function SetMember(tok: Token, kind: TokenType, spelling: string,
                     value: int := 0, cType: Option<CType> := None): (t: Token)
    ensures t.kind == kind && t.spelling == spelling
    ensures t.value == value && t.cType == cType
    ensures t.row == tok.row && t.col == tok.col
  {
    tok.(kind := kind, value := value, cType := cType, spelling := spelling)
  }

  /** Leaving out the optional arguments stores value 0 and a null type. */
  lemma SetMemberDefaults(tok: Token, kind: TokenType, spelling: string)
    ensures SetMember(tok, kind, spelling).value == 0
    ensures SetMember(tok, kind, spelling).cType == None
    ensures SetMember(tok, kind, spelling) == SetMember(tok, kind, spelling, 0, None)
  {
  }

  /** Only the position survives a `setMember`: two tokens at the same
      position become equal once the same members are set. */
  lemma SetMemberForgetsOldMembers(a: Token, b: Token, kind: TokenType, spelling: string,
                                   value: int, cType: Option<CType>)
    requires a.row == b.row && a.col == b.col
    ensures SetMember(a, kind, spelling, value, cType) == SetMember(b, kind, spelling, value, cType)
  {
  }
}

=== FILE: wrappers.dfy ===
/** Wrappers used across the model: `Option` stands for a pointer that may
    be null, `Result` for an operation that may abort. */
module Wrappers {

  datatype Option<+T> = None | Some(value: T)

  datatype Result<+R, +E> = Success(value: R) | Failure(error: E)
}
